=== FILE: README.md ===
# Smart School setup: a Dafny model

This project models the setup domain of the Smart School system. That domain covers:

- the academic sessions, one of which may be the current session;
- the school classes, with their sections and their assigned subjects;
- the subjects, each with an optional code.

The model has three parts.

- **Backend services and repositories.** Each table is a `Jpa.Table` object whose `rows` map ids to records. Every service call is one transactional step, in the source's order:
  1. an existence lookup that fails with `NotFound`;
  2. pre-write checks that fail with `DuplicateResource` or `InvalidOperation`;
  3. the write.

  A failed call rolls back, so each method's contract says that an `Err` result leaves every table unchanged. Each method also keeps the table invariant it needs. For sessions that invariant is "at most one session is current, and names are distinct". For sections, names are unique within their class and every section points at a stored class. For subjects, names are unique, codes are unique when present and not blank, and every assigned subject exists.
- **The frontend session store.** This is the client-side cache of sessions in the signal store. It is a class whose fields the success and error handlers patch. The new lists are built by recursive functions over sequences: append, map by id and filter.
- **The session form's helpers.** These are the end-after-start range validator, the `YYYY-MM-DD` formatter and the Date-to-picker conversion. The validator's `new Date(y, m - 1, d)` comparisons use the day arithmetic of ECMA-262, section 21.4.1 (`DayFromYear`, `MakeDay`). On calendar dates that comparison is proved to be lexicographic order on (year, month, day).

Files, one module each:

- `common.dfy`: `Option`, `Result` and the four error kinds.
- `entities.dfy`: records, request bodies, `LocalDate.isBefore` and `String.isBlank`.
- `jpa_table.dfy`: the repository table that `save` and `delete` write.
- Repositories: `academic_session_repository.dfy`, `section_repository.dfy`, `school_class_repository.dfy` and `subject_repository.dfy`.
- Services: `academic_session_service.dfy`, `section_service.dfy`, `school_class_service.dfy` and `subject_service.dfy`.
- `academic_session_store.dfy`: the frontend store.
- `ecmascript_date.dfy` and `academic_session_form.dfy`: the form.

Two behaviours of the code that a reader might not expect:

- **Deleting a subject still assigned to a class fails.** `Subject.classes` is the `mappedBy` side of the many-to-many relation, so deleting a subject removes no `class_subjects` row, and the join table's foreign key refuses the delete.
- **Setting or re-saving the already-current session.** The service methods here model the intended behaviour, in which that session stays current. What the code commits is modelled by `SetCurrentAsFlushed` and `UpdateCurrentAsFlushed`; see "## Findings".

## Model

| member | source | states |
|---|---|---|
| AcademicSessionRepository.ExistsByName | backend/src/main/java/com/smartschool/setup/repository/AcademicSessionRepository.java:26 | true iff some stored session has exactly that name |
| AcademicSessionRepository.ExistsByNameAndIdNot | backend/src/main/java/com/smartschool/setup/repository/AcademicSessionRepository.java:31 | true iff some session other than `id` has that name |
| AcademicSessionRepository.ExistsByNameAndIdNotImpliesExistsByName | backend/src/main/java/com/smartschool/setup/repository/AcademicSessionRepository.java:26-31 | the IdNot query implies the plain one, and equals it when `id` is absent or differently named |
| AcademicSessionRepository.UnsetAll | backend/src/main/java/com/smartschool/setup/repository/AcademicSessionRepository.java:36-38 | after the bulk update the same ids are stored, none is current, and every row differs from before at most in its flag |
| AcademicSessionRepository.UnsetAllKeepsNonCurrent | backend/src/main/java/com/smartschool/setup/repository/AcademicSessionRepository.java:37 | a row the WHERE clause does not select is left exactly as it was |
| AcademicSessionRepository.UnsetAllIdempotent | backend/src/main/java/com/smartschool/setup/repository/AcademicSessionRepository.java:37 | running the bulk update twice gives the same table as running it once |
| AcademicSessionRepository.FindByIsCurrentTrue | backend/src/main/java/com/smartschool/setup/repository/AcademicSessionRepository.java:21 | returns a stored current session, and returns empty iff no session is current |
| AcademicSessionRepository.UnsetAllCurrentSessions | backend/src/main/java/com/smartschool/setup/repository/AcademicSessionRepository.java:36-38 | the stored table becomes `UnsetAll` of the old one |
| SectionRepository.FindBySchoolClassId | backend/src/main/java/com/smartschool/setup/repository/SectionRepository.java:20-21 | returns exactly the sections whose class is `classId`, each as stored |
| SectionRepository.ExistsBySchoolClassIdAndName | backend/src/main/java/com/smartschool/setup/repository/SectionRepository.java:26-27 | true iff some section of class `classId` has that name |
| SectionRepository.ExistsBySchoolClassIdAndNameAndIdNot | backend/src/main/java/com/smartschool/setup/repository/SectionRepository.java:32-33 | true iff some section of class `classId` other than `id` has that name |
| SectionRepository.ExistsMeansFoundInClass | backend/src/main/java/com/smartschool/setup/repository/SectionRepository.java:20-27 | the existence query is a name lookup among the class's own sections, as `findBySchoolClassId` returns them |
| SectionRepository.IdNotImpliesExists | backend/src/main/java/com/smartschool/setup/repository/SectionRepository.java:26-33 | the IdNot variant implies the plain one, and equals it when the excluded row is absent or of another class or name |
| SectionRepository.OtherClassesDoNotMatter | backend/src/main/java/com/smartschool/setup/repository/SectionRepository.java:20-33 | storing, replacing or deleting a section of another class changes none of the three queries about `classId` |
| SchoolClassRepository.ExistsByName | backend/src/main/java/com/smartschool/setup/repository/SchoolClassRepository.java:20 | true iff some class has that name |
| SchoolClassRepository.ExistsByNameAndIdNot | backend/src/main/java/com/smartschool/setup/repository/SchoolClassRepository.java:25 | true iff some class other than `id` has that name |
| SubjectRepository.ExistsByName | backend/src/main/java/com/smartschool/setup/repository/SubjectRepository.java:20 | true iff some subject has that name |
| SubjectRepository.ExistsByNameAndIdNot | backend/src/main/java/com/smartschool/setup/repository/SubjectRepository.java:25 | true iff some subject other than `id` has that name |
| SubjectRepository.ExistsByCode | backend/src/main/java/com/smartschool/setup/repository/SubjectRepository.java:30 | true iff some subject's stored code is that string; a null code matches nothing |
| SubjectRepository.ExistsByCodeAndIdNot | backend/src/main/java/com/smartschool/setup/repository/SubjectRepository.java:35 | true iff some subject other than `id` has that code |
| SubjectRepository.FindByIdIn | backend/src/main/java/com/smartschool/setup/repository/SubjectRepository.java:40 | the result holds exactly the requested ids that are stored |
| SubjectRepository.FindByIdInSize | backend/src/main/java/com/smartschool/setup/service/SchoolClassService.java:130-134 | the result has the request's size iff every requested id is stored, and then it is the request itself |
| Jpa.Table.Insert | backend/src/main/java/com/smartschool/setup/service/AcademicSessionService.java:53 | `save` of a new entity stores it under a fresh id and changes no other row |
| Jpa.Table.Update | backend/src/main/java/com/smartschool/setup/service/AcademicSessionService.java:115 | `save` of a loaded entity replaces exactly its row |
| Jpa.Table.Delete | backend/src/main/java/com/smartschool/setup/service/AcademicSessionService.java:154 | `delete` removes exactly that row |
| AcademicSessionService.FindSessionByIdOrThrow | backend/src/main/java/com/smartschool/setup/service/AcademicSessionService.java:161-164 | returns the stored session iff the id is stored, and NotFound otherwise |
| AcademicSessionService.ToEntity | backend/src/main/java/com/smartschool/setup/mapper/AcademicSessionMapper.java:22 | name and dates are copied; the entity is current exactly when the request says `isCurrent = true` |
| AcademicSessionService.UpdateEntityFromRequest | backend/src/main/java/com/smartschool/setup/mapper/AcademicSessionMapper.java:16-28 | name and dates are copied; a null `isCurrent` keeps the entity's flag (the IGNORE strategy); with the flag present the result is what `toEntity` builds |
| AcademicSessionService.UpdateEntityIdempotent | backend/src/main/java/com/smartschool/setup/mapper/AcademicSessionMapper.java:28 | applying the same request a second time changes nothing more |
| AcademicSessionService.SaveAsSoleCurrent | backend/src/main/java/com/smartschool/setup/service/AcademicSessionService.java:47-53 | clearing every flag and then saving a current session makes that session the only current one |
| AcademicSessionService.UnsetAllKeepsNames | backend/src/main/java/com/smartschool/setup/repository/AcademicSessionRepository.java:37 | the bulk update keeps every name, so distinct names stay distinct |
| AcademicSessionService.CreateSession | backend/src/main/java/com/smartschool/setup/service/AcademicSessionService.java:33-57 | DuplicateResource iff the name exists. InvalidOperation iff the name is new and the end is strictly before the start, so equal dates are accepted. Any error leaves the table unchanged. On success a fresh id holds the request, and with isCurrent = true it is the only current session; otherwise no other row changes. At most one current session and unique names are preserved |
| AcademicSessionService.GetCurrentSession | backend/src/main/java/com/smartschool/setup/service/AcademicSessionService.java:82-88 | NotFound iff no session is current; otherwise returns the one current session |
| AcademicSessionService.UpdateSession | backend/src/main/java/com/smartschool/setup/service/AcademicSessionService.java:93-119 | NotFound iff the id is absent. Then DuplicateResource iff another session has the name, then InvalidOperation iff the end is before the start. It succeeds iff none of these holds. Any error leaves the table unchanged. On success the row takes the request's name and dates; a null isCurrent keeps the stored flag. With isCurrent = true the row is the only current session; otherwise other rows are untouched. Invariants are preserved |
| AcademicSessionService.SetCurrentRows | backend/src/main/java/com/smartschool/setup/service/AcademicSessionService.java:128-135 | after setCurrentSession(id) the same ids are stored, exactly `id` is current, and only flags change |
| AcademicSessionService.SetCurrentIdempotent | backend/src/main/java/com/smartschool/setup/service/AcademicSessionService.java:128-135 | setting the same session current twice gives the state of setting it once |
| AcademicSessionService.SetCurrentLastWins | backend/src/main/java/com/smartschool/setup/service/AcademicSessionService.java:128-135 | setCurrentSession(a) then setCurrentSession(b) gives the state of setCurrentSession(b) alone |
| AcademicSessionService.SetCurrentSession | backend/src/main/java/com/smartschool/setup/service/AcademicSessionService.java:124-139 | NotFound, with no change, iff the id is absent; otherwise the table becomes `SetCurrentRows` of the old one and the result is the stored session. Invariants are preserved |
| AcademicSessionService.DeleteSession | backend/src/main/java/com/smartschool/setup/service/AcademicSessionService.java:144-156 | NotFound iff absent; InvalidOperation iff it is the current session, which stays stored; it succeeds iff the session is stored and not current, and then exactly that row is removed |
| AcademicSessionService.SetCurrentOnCurrentClearsAll | backend/src/main/java/com/smartschool/setup/service/AcademicSessionService.java:128-135 | as the source commits it, setting the already-current session as current leaves no session current |
| AcademicSessionService.UpdateUnchangedCurrentClearsAll | backend/src/main/java/com/smartschool/setup/service/AcademicSessionService.java:109-115 | as the source commits it, re-saving the current session unchanged with isCurrent = true leaves no session current |
| AcademicSessionService.SetCurrentAsFlushedNotIdempotent | backend/src/main/java/com/smartschool/setup/service/AcademicSessionService.java:128-135 | on a one-session table, the first committed call makes the session current and the second makes it not current |
| AcademicSessionService.FlushLoaded | backend/src/main/java/com/smartschool/setup/service/AcademicSessionService.java:128-135 | at commit only the loaded entity's row can change: it keeps what the bulk update left unless the entity differs from its loaded state, and then holds the entity; every other row is as the bulk update left it |
| AcademicSessionService.SetCurrentAsFlushed | backend/src/main/java/com/smartschool/setup/service/AcademicSessionService.java:128-135 | the committed setCurrentSession keeps the ids; on a session not yet current it equals the corrected `SetCurrentRows`; on the current one no session is left current |
| AcademicSessionService.UpdateCurrentAsFlushed | backend/src/main/java/com/smartschool/setup/service/AcademicSessionService.java:109-115 | the committed updateSession with `isCurrent = true` keeps the ids; when the request changes the entity it equals the corrected `SaveAsSoleCurrent`; when it resubmits the entity unchanged no session is left current |
| SectionService.RemovingKeepsNamesUnique | backend/src/main/java/com/smartschool/setup/service/SectionService.java:43 | removing sections never makes two names of one class collide |
| SectionService.CreateSection | backend/src/main/java/com/smartschool/setup/service/SectionService.java:35-56 | NotFound iff the class is absent, checked before anything else. DuplicateResource iff that class already has a section of that name, so other classes do not matter. It succeeds iff the class exists and the name is free in it. Any error changes nothing. On success a fresh id holds a section of the requested class. Invariants are preserved |
| SectionService.GetSectionsByClassId | backend/src/main/java/com/smartschool/setup/service/SectionService.java:71-80 | NotFound iff the class is absent; otherwise returns exactly the sections of that class |
| SectionService.UpdateSection | backend/src/main/java/com/smartschool/setup/service/SectionService.java:95-119 | NotFound iff the section is absent or the target class is absent. DuplicateResource iff another section of the target class has the name. It succeeds iff the section and the target class exist and the name is free there. Any error rolls back the class change too. On success the section has the requested name and class. Invariants are preserved |
| SectionService.DeleteSection | backend/src/main/java/com/smartschool/setup/service/SectionService.java:124-132 | NotFound iff absent, with no change; otherwise exactly that section is removed |
| SchoolClassService.RemainingSections | backend/src/main/java/com/smartschool/setup/entity/SchoolClass.java:35 | the cascade removes exactly the sections `findBySchoolClassId` returns for the class, and keeps the others unchanged |
| SchoolClassService.CreateClass | backend/src/main/java/com/smartschool/setup/service/SchoolClassService.java:38-52 | DuplicateResource iff the name exists, with no change; otherwise exactly one new class, with no subjects, under a fresh id |
| SchoolClassService.UpdateClass | backend/src/main/java/com/smartschool/setup/service/SchoolClassService.java:88-104 | NotFound iff absent; DuplicateResource iff another class has the name; it succeeds iff the class exists and no other class has the name, so keeping the class's own name always succeeds; on success only the name of that row changes |
| SchoolClassService.DeleteClass | backend/src/main/java/com/smartschool/setup/service/SchoolClassService.java:109-117 | NotFound iff absent, with no change; otherwise the class and exactly its own sections are removed, and every remaining section still points at a stored class |
| SchoolClassService.AssignSubjectsToClass | backend/src/main/java/com/smartschool/setup/service/SchoolClassService.java:122-142 | NotFound, with no change, iff the class is absent or any requested subject is unknown; otherwise the class's subjects become exactly the requested set and no other class changes |
| SchoolClassService.RemoveSubjectsFromClass | backend/src/main/java/com/smartschool/setup/service/SchoolClassService.java:147-160 | NotFound iff the class is absent; otherwise its subjects become the old set minus the given ids. Unknown ids are ignored, nothing is added, a repeat removes nothing more, and no other class changes |
| SubjectService.UpdateEntityFromRequest | backend/src/main/java/com/smartschool/setup/mapper/SubjectMapper.java:16-28 | the name is copied; a present code replaces the stored one and a null code keeps it (the IGNORE strategy) |
| SubjectService.UpdateEntityIdempotent | backend/src/main/java/com/smartschool/setup/mapper/SubjectMapper.java:28 | applying the same request a second time changes nothing more |
| SubjectService.CreateSubject | backend/src/main/java/com/smartschool/setup/service/SubjectService.java:32-52 | DuplicateResource iff the name exists, or the code is present, not blank and already stored; a null or blank code never fails. Any error changes nothing. On success there is one new subject. Unique names and unique checked codes are preserved |
| SubjectService.UpdateSubject | backend/src/main/java/com/smartschool/setup/service/SubjectService.java:77-99 | NotFound iff absent. DuplicateResource iff another subject has the name or the present, non-blank code; both checks leave the subject itself out. It succeeds iff the subject exists and neither check finds a clash. On success a null code keeps the stored one. Invariants are preserved |
| SubjectService.DeleteSubject | backend/src/main/java/com/smartschool/setup/service/SubjectService.java:104-112 | NotFound iff absent; IntegrityViolation iff some class still holds the subject; it succeeds iff the subject exists and no class holds it, and then exactly that subject is removed |
| AcademicSessionStore.ReplaceById | frontend/src/app/modules/setup/academic-sessions/store/academic-session.store.ts:115 | the list keeps its length and order, and each entry is replaced iff its id matches |
| AcademicSessionStore.MarkCurrent | frontend/src/app/modules/setup/academic-sessions/store/academic-session.store.ts:143-146 | the list keeps its length and order; each entry is current iff its id matches, and nothing else in it changes |
| AcademicSessionStore.RemoveById | frontend/src/app/modules/setup/academic-sessions/store/academic-session.store.ts:166 | the result holds exactly the entries without that id |
| AcademicSessionStore.MarkCurrentAtMostOne | frontend/src/app/modules/setup/academic-sessions/store/academic-session.store.ts:143-147 | with distinct ids, at most one entry is current afterwards, and it carries the chosen id |
| AcademicSessionStore.RemoveByIdConcat | frontend/src/app/modules/setup/academic-sessions/store/academic-session.store.ts:166 | the filter distributes over concatenation, so the remaining entries keep their order |
| AcademicSessionStore.RemoveByIdAbsent | frontend/src/app/modules/setup/academic-sessions/store/academic-session.store.ts:166 | filtering an id the list does not hold leaves the list unchanged |
| AcademicSessionStore.RemoveByIdKeepsAtMostOneCurrent | frontend/src/app/modules/setup/academic-sessions/store/academic-session.store.ts:166 | filtering keeps "at most one entry is current" |
| AcademicSessionStore.AppendingCurrentKeepsOldFlag | frontend/src/app/modules/setup/academic-sessions/store/academic-session.store.ts:91-96 | appending a created current session to a list that already shows one leaves two entries current |
| AcademicSessionStore.Store.constructor | frontend/src/app/modules/setup/academic-sessions/store/academic-session.store.ts:23-29 | the initial state: no sessions, no selection, no current session, not loading, no error |
| AcademicSessionStore.Store.SessionCount | frontend/src/app/modules/setup/academic-sessions/store/academic-session.store.ts:39 | the count of cached sessions, zero exactly when the list is empty; `CreateSucceeded` raises it by one, `UpdateSucceeded` and `SetCurrentSucceeded` keep it, and `DeleteSucceeded` never raises it |
| AcademicSessionStore.Store.HasCurrentSession | frontend/src/app/modules/setup/academic-sessions/store/academic-session.store.ts:40 | true exactly when a current session is held; it holds after `SetCurrentSucceeded` and after creating a current session, and after `DeleteSucceeded(id)` it never refers to `id` |
| AcademicSessionStore.Store.StartRequest | frontend/src/app/modules/setup/academic-sessions/store/academic-session.store.ts:48 | a request sets loading and clears the error; the lists and sessions stay |
| AcademicSessionStore.Store.RequestFailed | frontend/src/app/modules/setup/academic-sessions/store/academic-session.store.ts:53 | an error handler sets only the message and stops loading |
| AcademicSessionStore.Store.LoadSessionsSucceeded | frontend/src/app/modules/setup/academic-sessions/store/academic-session.store.ts:52 | the list becomes the loaded one and loading stops; nothing else changes |
| AcademicSessionStore.Store.LoadCurrentSessionSucceeded | frontend/src/app/modules/setup/academic-sessions/store/academic-session.store.ts:69 | the current session becomes the loaded one and loading stops; nothing else changes |
| AcademicSessionStore.Store.CreateSucceeded | frontend/src/app/modules/setup/academic-sessions/store/academic-session.store.ts:90-96 | the new session is appended, so sessionCount grows by one; it becomes the current session only if it is flagged current |
| AcademicSessionStore.Store.UpdateSucceeded | frontend/src/app/modules/setup/academic-sessions/store/academic-session.store.ts:114-123 | entries with the id are replaced and sessionCount stays; the selection is replaced only if its id matches; the current session is set only if the update is current |
| AcademicSessionStore.Store.SetCurrentSucceeded | frontend/src/app/modules/setup/academic-sessions/store/academic-session.store.ts:141-147 | each entry's flag becomes (id matches), sessionCount stays, and with distinct ids at most one entry is current; the server's session becomes current |
| AcademicSessionStore.Store.DeleteSucceeded | frontend/src/app/modules/setup/academic-sessions/store/academic-session.store.ts:165-174 | entries with the id are removed and "at most one current" is kept; the selected and current sessions are cleared exactly when they carry the id |
| AcademicSessionStore.Store.SelectSession | frontend/src/app/modules/setup/academic-sessions/store/academic-session.store.ts:186-188 | only the selected session changes |
| AcademicSessionStore.Store.ClearError | frontend/src/app/modules/setup/academic-sessions/store/academic-session.store.ts:193-195 | only the error changes, to none |
| EcmaScriptDate.DayFromYearStep | frontend/src/app/modules/setup/academic-sessions/components/academic-session-form.component.ts:187-188 | the day number of 1 January advances by the length of the year |
| EcmaScriptDate.DayFromYearIncreasing | frontend/src/app/modules/setup/academic-sessions/components/academic-session-form.component.ts:187-188 | every day of an earlier year comes before 1 January of a later one |
| EcmaScriptDate.MonthsIncreasing | frontend/src/app/modules/setup/academic-sessions/components/academic-session-form.component.ts:187-188 | the months of a year follow one another without overlap |
| EcmaScriptDate.MonthsWithinYear | frontend/src/app/modules/setup/academic-sessions/components/academic-session-form.component.ts:187-188 | the last day of each month lies within its year |
| EcmaScriptDate.MakeDayIncreasing | frontend/src/app/modules/setup/academic-sessions/components/academic-session-form.component.ts:187-190 | on calendar dates, an earlier (year, month, day) has a smaller day number |
| EcmaScriptDate.MakeDayOrder | frontend/src/app/modules/setup/academic-sessions/components/academic-session-form.component.ts:187-190 | on calendar dates, comparing day numbers is comparing (year, month, day) lexicographically |
| EcmaScriptDate.ConstructedDayOrder | frontend/src/app/modules/setup/academic-sessions/components/academic-session-form.component.ts:187-190 | for years outside 0-99, comparing `new Date(year, monthIndex, date)` day numbers of calendar dates is lexicographic comparison |
| EcmaScriptDate.OneBasedOrder | frontend/src/app/modules/setup/academic-sessions/components/academic-session-form.component.ts:187-190 | the same with one-based months passed as `month - 1`, compared in one-based (year, month, day) order |
| AcademicSessionForm.StructDayOrder | frontend/src/app/modules/setup/academic-sessions/components/academic-session-form.component.ts:187-190 | for calendar picker dates, the validator's day numbers are in (year, month, day) order |
| AcademicSessionForm.StructDay | frontend/src/app/modules/setup/academic-sessions/components/academic-session-form.component.ts:187-188 | the local day number of `new Date(year, month - 1, day)`: for a month 1-12, the day of 1 January (a year 0-99 taken as 1900-1999) plus the days of the earlier months plus the day, less one |
| AcademicSessionForm.DateRangeValidator | frontend/src/app/modules/setup/academic-sessions/components/academic-session-form.component.ts:182-196 | no error when either date is missing |
| AcademicSessionForm.DateRangeMatchesCalendarOrder | frontend/src/app/modules/setup/academic-sessions/components/academic-session-form.component.ts:186-191 | for calendar dates the validator accepts iff the start is before the end in (year, month, day) order, so same-day ranges are rejected |
| AcademicSessionForm.FormStricterThanBackend | frontend/src/app/modules/setup/academic-sessions/components/academic-session-form.component.ts:190-191 | a range the form accepts passes the backend's `endDate.isBefore(startDate)` check; a same-day range, which the backend accepts, the form rejects |
| AcademicSessionForm.DigitChar | frontend/src/app/modules/setup/academic-sessions/components/academic-session-form.component.ts:240 | each digit prints as a decimal digit character |
| AcademicSessionForm.NatToString | frontend/src/app/modules/setup/academic-sessions/components/academic-session-form.component.ts:240 | `String(n)` of a natural number is a non-empty string of decimal digits |
| AcademicSessionForm.NatToStringRoundTrip | frontend/src/app/modules/setup/academic-sessions/components/academic-session-form.component.ts:240 | reading the printed digits back gives the number |
| AcademicSessionForm.NatToStringLength | frontend/src/app/modules/setup/academic-sessions/components/academic-session-form.component.ts:239-241 | numbers of one, two and four digits print with one, two and four characters |
| AcademicSessionForm.PadStart2 | frontend/src/app/modules/setup/academic-sessions/components/academic-session-form.component.ts:240-241 | `padStart(2, '0')` keeps strings of two or more characters and left-fills shorter ones with '0' to length two |
| AcademicSessionForm.TwoDigitField | frontend/src/app/modules/setup/academic-sessions/components/academic-session-form.component.ts:240-241 | a month or day from 0 to 99 becomes two digits that read back as it |
| AcademicSessionForm.FieldPositions | frontend/src/app/modules/setup/academic-sessions/components/academic-session-form.component.ts:242 | in `year-month-day` with a four-character year and two-character fields, each field sits at its fixed place |
| AcademicSessionForm.NgbDateStructToIsoStringIsIso | frontend/src/app/modules/setup/academic-sessions/components/academic-session-form.component.ts:238-243 | for a four-digit year and month and day fields 0-99 the string is `YYYY-MM-DD`: length 10, dashes at positions 4 and 7, and digit fields that read back as year, month and day |
| AcademicSessionForm.IsoStringInjective | frontend/src/app/modules/setup/academic-sessions/components/academic-session-form.component.ts:238-243 | distinct dates in that range format to distinct strings |
| AcademicSessionForm.DateToNgbDateStruct | frontend/src/app/modules/setup/academic-sessions/components/academic-session-form.component.ts:227-233 | a zero-based month index 0-11 becomes a one-based month 1-12 |
| AcademicSessionForm.DateToNgbDateStructRoundTrip | frontend/src/app/modules/setup/academic-sessions/components/academic-session-form.component.ts:227-233 | the validator's `month - 1` undoes the `+ 1`, giving back the Date's own day; the formatted string reads back as the Date's year, one-based month and day |
| AcademicSessionForm.InitialFormValue | frontend/src/app/modules/setup/academic-sessions/components/academic-session-form.component.ts:168-177 | with no session, the name is empty, both dates are null and isCurrent is false; otherwise the name and flag are the session's, and a date is present iff its string is non-empty |

## Left out

- The REST controllers: each is a one-line delegation to a service plus an HTTP status.
- Authentication, the admin seeding at startup and the console output: they depend on Spring Security, password hashing, JWTs, `localStorage` and the clock.
- The read-only list and get-by-id service methods: `getAllSessions`, `getSessionById`, `getAllClasses`, `getClassById`, `getClassByIdWithSubjects`, `getAllSections`, `getSectionById`, `getAllSubjects`, `getSubjectById`. They return a table or one row, or NotFound as `FindSessionByIdOrThrow` shows.
- The mappers' copies into response DTOs, the DTOs themselves, and the `createdAt`/`updatedAt` audit timestamps, which are clock-driven.
- Bean-validation annotations on the request bodies: they reject a request before the service runs. Request fields the annotations require are plain, non-optional values here.
- The Java source of the `AcademicSession` entity is not part of this model, so its column defaults and whether `isCurrent` may be null are not known. The record `Entities.AcademicSession` holds its fields, and a stored null `isCurrent` is treated as not current, as every check in the services does.
- AcademicSessionService.CreateSession: a request with a null `isCurrent` is stored as not current. The mapper would copy the null, but nothing distinguishes null from false afterwards.
- AcademicSessionService.GetCurrentSession: it requires at most one current session. When several are current, the source's `findByIsCurrentTrue` throws an incorrect-result-size error; that case is not modelled.
- Database unique constraints, foreign keys other than the `class_subjects` one, and collation or case-insensitive comparison: names and codes are compared with exact string equality, and only the services' own checks are modelled. The `(class_id, name)` constraint of `sections` matters for `updateSection`. That method moves the loaded section to its new class before it runs its duplicate query, so Hibernate's AUTO flush may first write the row as (new class, old name). When the old name is already taken in the target class, the source then ends with a constraint error. In that case the model returns `DuplicateResource` if the requested name is taken there too, and `Ok` otherwise.
- Concurrent requests and transaction isolation: each service call is one atomic step.
- The persistence context's dirty checking is modelled only in `FlushLoaded` and the two `AsFlushed` functions of the finding below. The service methods use the corrected behaviour.
- Logging.
- The Angular UI, templates, routing and the HTTP client wrapper.
- The store's RxJS machinery (`rxMethod`, `switchMap` cancellation): only the state each handler writes is modelled. The `catchError` fallback in `loadCurrentSession` is also left out, because `tapResponse` already handles the error.
- The form's `onSubmit` and `onCancel`: they are UI glue that calls the store and closes the dialog.
- JavaScript Date details:
  - the host time zone, so `new Date(string)` in `initializeForm` is a parameter (`parse`) and no string-to-date round trip is claimed;
  - time values, `TimeClip` and invalid dates (NaN);
  - the formatting of numbers of 21 or more digits in exponent notation.

## Findings

| source | as written | input that shows it | evidently intended | confidence | as-written member | corrected member |
|---|---|---|---|---|---|---|
| backend/src/main/java/com/smartschool/setup/service/AcademicSessionService.java:128-135 | The session is loaded into the persistence context, then the bulk JPQL update clears every flag in the database without touching the loaded entity. Then `setIsCurrent(true)` sets a value equal to the loaded snapshot, so no UPDATE is flushed. Lines 109-115 of `updateSession` behave the same when the current session is re-saved unchanged with isCurrent = true | a table with one session, already current; call setCurrentSession on it | the chosen session is the only current session afterwards, and repeating the call changes nothing | medium, not executed | AcademicSessionService.SetCurrentOnCurrentClearsAll | AcademicSessionService.SetCurrentIdempotent |

=== FILE: academic_session_form.dfy ===
/** The session form's pure helpers: the end-after-start validator, the conversion
    of a picker date to a `YYYY-MM-DD` string, the conversion of a Date's local
    fields to a picker date, and the form's initial values. */
module AcademicSessionForm {
  import opened Common
  import opened EcmaScriptDate
  import Entities
  import AcademicSessionStore

  /** NgbDateStruct: month is 1-based. */
  datatype DateStruct = DateStruct(year: int, month: int, day: int)

  /** What a Date's getFullYear, getMonth (0-based) and getDate return. */
  datatype LocalDateFields = LocalDateFields(fullYear: int, monthIndex: int, date: int)

  datatype FormError = DateRange

  /** The form's value: the name, the two picker dates (null when empty) and the flag. */
  datatype SessionFormValue = SessionFormValue(
    name: string, startDate: Option<DateStruct>, endDate: Option<DateStruct>, isCurrent: bool)

  /** The local day of `new Date(d.year, d.month - 1, d.day)`: for a month 1-12, the
      day of 1 January plus the days of the earlier months plus the day, where a
      year from 0 to 99 counts as 1900 to 1999. */
  function StructDay(d: DateStruct): (day: int)
    ensures 1 <= d.month <= 12 ==>
      var y := if 0 <= d.year <= 99 then 1900 + d.year else d.year;
      day == DayFromYear(y) + DaysBeforeMonth(y, d.month - 1) + d.day - 1
  {
    ConstructedDay(d.year, d.month - 1, d.day)
  }

  /** dateRangeValidator: an error when both dates are set and the start is not
      before the end. */
  function DateRangeValidator(startDate: Option<DateStruct>, endDate: Option<DateStruct>): (r: Option<FormError>)
    ensures startDate.None? || endDate.None? ==> r == None
  {
    if startDate.Some? && endDate.Some? then
      if StructDay(startDate.value) >= StructDay(endDate.value) then Some(DateRange) else None
    else
      None
  }

  /** A picker date that names a day of the calendar, with a year the Date
      constructor takes as it is (not 0-99). */
  predicate CalendarDate(d: DateStruct) {
    ValidDay(d.year, d.month - 1, d.day) && !(0 <= d.year <= 99)
  }

  /** For calendar dates the picker's dates are in the order of their day numbers. */
  lemma StructDayOrder(a: DateStruct, b: DateStruct)
    requires CalendarDate(a) && CalendarDate(b)
    ensures StructDay(a) < StructDay(b) <==> LexBefore(a.year, a.month, a.day, b.year, b.month, b.day)
  {
    var DateStruct(y1, mo1, d1) := a;
    var DateStruct(y2, mo2, d2) := b;
    var start, end := StructDay(a), StructDay(b);
    assert start == ConstructedDay(y1, mo1 - 1, d1);
    assert end == ConstructedDay(y2, mo2 - 1, d2);
    OneBasedOrder(y1, mo1, d1, y2, mo2, d2);
    assert start < end <==> LexBefore(y1, mo1, d1, y2, mo2, d2);
  }

  /** For calendar dates the validator accepts exactly the ranges whose start comes
      before their end in (year, month, day) order. */
  lemma DateRangeMatchesCalendarOrder(a: DateStruct, b: DateStruct)
    requires CalendarDate(a) && CalendarDate(b)
    ensures DateRangeValidator(Some(a), Some(b)).None?
        <==> LexBefore(a.year, a.month, a.day, b.year, b.month, b.day)
  {
    StructDayOrder(a, b);
  }

  /** The form is stricter than the backend: a range it accepts is one the backend's
      `endDate.isBefore(startDate)` test accepts too, and a one-day range, which the
      backend accepts, the form rejects. */
  lemma FormStricterThanBackend(a: DateStruct, b: DateStruct)
    requires CalendarDate(a) && CalendarDate(b)
    ensures DateRangeValidator(Some(a), Some(b)).None?
        ==> !Entities.LocalDate(b.year, b.month, b.day).IsBefore(Entities.LocalDate(a.year, a.month, a.day))
    ensures DateRangeValidator(Some(a), Some(a)) == Some(DateRange)
    ensures !Entities.LocalDate(a.year, a.month, a.day).IsBefore(Entities.LocalDate(a.year, a.month, a.day))
  {
    DateRangeMatchesCalendarOrder(a, b);
  }

  // ---------------------------------------------------------------------------
  // `${year}-${String(month).padStart(2, '0')}-${String(day).padStart(2, '0')}`

  predicate IsDigit(c: char) {
    '0' <= c <= '9'
  }

  function DigitValue(c: char): nat
    requires IsDigit(c)
  {
    c as int - '0' as int
  }

  function DigitChar(d: nat): (c: char)
    requires d < 10
    ensures IsDigit(c)
  {
    ('0' as int + d) as char
  }

  /** The decimal digits of a natural number, most significant first. */
  function NatToString(n: nat): (s: string)
    ensures 1 <= |s| && AllDigits(s)
  {
    if n < 10 then [DigitChar(n)] else NatToString(n / 10) + [DigitChar(n % 10)]
  }

  /** String(n) for an integer n. */
  function NumberToString(n: int): string {
    if n < 0 then "-" + NatToString(-n) else NatToString(n)
  }

  /** padStart(2, '0') */
  function PadStart2(s: string): (r: string)
    ensures |s| >= 2 ==> r == s
    ensures |s| < 2 ==> |r| == 2 && r[2 - |s|..] == s && forall i :: 0 <= i < 2 - |s| ==> r[i] == '0'
  {
    if |s| >= 2 then s else seq(2 - |s|, _ => '0') + s
  }

  /** ngbDateStructToISOString */
  function NgbDateStructToIsoString(d: DateStruct): string {
    NumberToString(d.year) + "-" + PadStart2(NumberToString(d.month)) + "-" + PadStart2(NumberToString(d.day))
  }

  /** Every character is a decimal digit. */
  predicate AllDigits(s: string) {
    forall i :: 0 <= i < |s| ==> IsDigit(s[i])
  }

  /** The value of a string of decimal digits: the decoder the formatter is checked
      against. */
  function DecimalValue(s: string): nat
    requires AllDigits(s)
  {
    if s == [] then 0 else DecimalValue(s[..|s| - 1]) * 10 + DigitValue(s[|s| - 1])
  }

  /** Reading the digits back gives the number. */
  lemma {:induction false} NatToStringRoundTrip(n: nat)
    ensures DecimalValue(NatToString(n)) == n
  {
    var s := NatToString(n);
    if n >= 10 {
      NatToStringRoundTrip(n / 10);
      assert s[..|s| - 1] == NatToString(n / 10);
    }
  }

  /** Numbers of four, two and one digits print with four, two and one characters. */
  lemma NatToStringLength(n: nat)
    ensures n < 10 ==> |NatToString(n)| == 1
    ensures 10 <= n < 100 ==> |NatToString(n)| == 2
    ensures 1000 <= n < 10000 ==> |NatToString(n)| == 4
  {
    if 1000 <= n < 10000 {
      assert |NatToString(n / 10)| == 3 by {
        assert |NatToString(n / 100)| == 2;
      }
    }
  }

  /** A month or day field from 0 to 99 is exactly two digits that read back as it. */
  lemma TwoDigitField(n: int)
    requires 0 <= n <= 99
    ensures |PadStart2(NumberToString(n))| == 2
    ensures AllDigits(PadStart2(NumberToString(n)))
    ensures DecimalValue(PadStart2(NumberToString(n))) == n
  {
    NatToStringLength(n);
    NatToStringRoundTrip(n);
    var s := PadStart2(NumberToString(n));
    if n < 10 {
      assert s == ['0', DigitChar(n)];
      assert s[..1] == ['0'];
    }
  }

  /** Where the three fields sit in `Y-M-D` when the year has four characters and
      the month and day two. */
  lemma FieldPositions(y: string, m: string, d: string)
    requires |y| == 4 && |m| == 2 && |d| == 2
    ensures var s := y + "-" + m + "-" + d;
      |s| == 10 && s[4] == '-' && s[7] == '-' && s[..4] == y && s[5..7] == m && s[8..] == d
  {
    var s := y + "-" + m + "-" + d;
    assert s[..4] == y;
    assert s[5..7] == m;
    assert s[8..] == d;
  }

  /** `s` is `YYYY-MM-DD` spelling the given year, month and day: ten characters,
      dashes at positions 4 and 7, and three digit fields with those values. */
  predicate IsIsoDate(s: string, year: int, month: int, day: int) {
    && |s| == 10 && s[4] == '-' && s[7] == '-'
    && AllDigits(s[..4]) && AllDigits(s[5..7]) && AllDigits(s[8..])
    && DecimalValue(s[..4]) == year && DecimalValue(s[5..7]) == month && DecimalValue(s[8..]) == day
  }

  /** A four-digit year and a month and day below 100 give `YYYY-MM-DD`, whose
      fields read back as the year, the month and the day. */
  lemma NgbDateStructToIsoStringIsIso(d: DateStruct)
    requires 1000 <= d.year <= 9999 && 0 <= d.month <= 99 && 0 <= d.day <= 99
    ensures IsIsoDate(NgbDateStructToIsoString(d), d.year, d.month, d.day)
  {
    var y := NumberToString(d.year);
    var m := PadStart2(NumberToString(d.month));
    var dd := PadStart2(NumberToString(d.day));
    NatToStringLength(d.year);
    NatToStringRoundTrip(d.year);
    TwoDigitField(d.month);
    TwoDigitField(d.day);
    FieldPositions(y, m, dd);
  }

  /** Distinct dates in that range give distinct strings. */
  lemma IsoStringInjective(a: DateStruct, b: DateStruct)
    requires 1000 <= a.year <= 9999 && 0 <= a.month <= 99 && 0 <= a.day <= 99
    requires 1000 <= b.year <= 9999 && 0 <= b.month <= 99 && 0 <= b.day <= 99
    requires NgbDateStructToIsoString(a) == NgbDateStructToIsoString(b)
    ensures a == b
  {
    NgbDateStructToIsoStringIsIso(a);
    NgbDateStructToIsoStringIsIso(b);
  }

  // ---------------------------------------------------------------------------

  /** dateToNgbDateStruct: the 0-based month of a Date becomes the picker's 1-based
      month. */
  function DateToNgbDateStruct(date: LocalDateFields): (d: DateStruct)
    ensures 0 <= date.monthIndex < 12 ==> 1 <= d.month <= 12
  {
    DateStruct(date.fullYear, date.monthIndex + 1, date.date)
  }

  /** The two conversions of the form agree: the validator's `month - 1` undoes the
      `+ 1`, so it rebuilds the Date's own day, and the string sent to the backend
      reads back as the Date's year, its 1-based month and its day. */
  lemma DateToNgbDateStructRoundTrip(date: LocalDateFields)
    requires 1000 <= date.fullYear <= 9999 && 0 <= date.monthIndex < 12 && 1 <= date.date <= 31
    ensures StructDay(DateToNgbDateStruct(date)) == ConstructedDay(date.fullYear, date.monthIndex, date.date)
    ensures IsIsoDate(NgbDateStructToIsoString(DateToNgbDateStruct(date)), date.fullYear, date.monthIndex + 1, date.date)
  {
    NgbDateStructToIsoStringIsIso(DateToNgbDateStruct(date));
  }

  /** initializeForm: the values the form starts with. `parse` stands for reading a
      stored date string through `new Date(...)` in the host's time zone. */
  function InitialFormValue(session: Option<AcademicSessionStore.SessionResponse>, parse: string -> LocalDateFields)
    : (f: SessionFormValue)
    ensures session.None? ==> f == SessionFormValue("", None, None, false)
    ensures session.Some? ==>
      && f.name == session.value.name
      && f.isCurrent == session.value.isCurrent
      && (f.startDate.Some? <==> session.value.startDate != "")
      && (f.endDate.Some? <==> session.value.endDate != "")
  {
    if session.None? then
      SessionFormValue("", None, None, false)
    else
      var s := session.value;
      SessionFormValue(
        s.name,
        if s.startDate != "" then Some(DateToNgbDateStruct(parse(s.startDate))) else None,
        if s.endDate != "" then Some(DateToNgbDateStruct(parse(s.endDate))) else None,
        s.isCurrent)
  }
}

=== FILE: academic_session_repository.dfy ===
/** AcademicSessionRepository: the derived queries on the session table and the
    bulk JPQL update that clears every current flag. */
module AcademicSessionRepository {
  import opened Common
  import opened Entities
  import opened Jpa

  type SessionRows = map<nat, AcademicSession>

  /** existsByName */
  function ExistsByName(rows: SessionRows, name: string): (b: bool)
    ensures b <==> exists k :: k in rows && rows[k].name == name
  {
    name in (set k | k in rows :: rows[k].name)
  }

  /** existsByNameAndIdNot */
  function ExistsByNameAndIdNot(rows: SessionRows, name: string, id: nat): (b: bool)
    ensures b <==> exists k :: k in rows && k != id && rows[k].name == name
  {
    name in (set k | k in rows && k != id :: rows[k].name)
  }

  /** At most one stored session is current. */
  predicate AtMostOneCurrent(rows: SessionRows) {
    forall j, k :: j in rows && k in rows && rows[j].isCurrent && rows[k].isCurrent ==> j == k
  }

  /** The table after `UPDATE AcademicSession a SET a.isCurrent = false WHERE
      a.isCurrent = true`: no session is current, and apart from that flag every
      row is as it was. */
  function UnsetAll(rows: SessionRows): (r: SessionRows)
    ensures r.Keys == rows.Keys
    ensures forall k :: k in r ==> !r[k].isCurrent
    ensures forall k :: k in r ==> r[k].(isCurrent := rows[k].isCurrent) == rows[k]
  {
    map k | k in rows :: if rows[k].isCurrent then rows[k].(isCurrent := false) else rows[k]
  }

  /** The rows the WHERE clause does not select are left exactly as they were. */
  lemma UnsetAllKeepsNonCurrent(rows: SessionRows, k: nat)
    requires k in rows && !rows[k].isCurrent
    ensures UnsetAll(rows)[k] == rows[k]
  {
    assert UnsetAll(rows)[k].(isCurrent := rows[k].isCurrent) == rows[k];
  }

  /** Running the bulk update twice is the same as running it once. */
  lemma UnsetAllIdempotent(rows: SessionRows)
    ensures UnsetAll(UnsetAll(rows)) == UnsetAll(rows)
  {
    var once := UnsetAll(rows);
    forall k | k in once ensures UnsetAll(once)[k] == once[k] {
      UnsetAllKeepsNonCurrent(once, k);
    }
  }

  /** Excluding one id can only turn a match into no match. */
  lemma ExistsByNameAndIdNotImpliesExistsByName(rows: SessionRows, name: string, id: nat)
    ensures ExistsByNameAndIdNot(rows, name, id) ==> ExistsByName(rows, name)
    ensures id !in rows ==> ExistsByNameAndIdNot(rows, name, id) == ExistsByName(rows, name)
    ensures id in rows && rows[id].name != name ==>
              ExistsByNameAndIdNot(rows, name, id) == ExistsByName(rows, name)
  {
  }

  /** findByIsCurrentTrue: some current session, or none when no flag is set. */
  method FindByIsCurrentTrue(rows: SessionRows) returns (r: Option<nat>)
    ensures r.Some? ==> r.value in rows && rows[r.value].isCurrent
    ensures r.None? <==> forall k :: k in rows ==> !rows[k].isCurrent
  {
    if exists k :: k in rows && rows[k].isCurrent {
      var k :| k in rows && rows[k].isCurrent;
      r := Some(k);
    } else {
      r := None;
    }
  }

  /** unsetAllCurrentSessions, run against the stored table. */
  method UnsetAllCurrentSessions(table: Table<AcademicSession>)
    requires table.Valid()
    modifies table
    ensures table.Valid() && table.rows == UnsetAll(old(table.rows))
  {
    table.rows := UnsetAll(table.rows);
  }
}

=== FILE: academic_session_service.dfy ===
/** AcademicSessionService: session CRUD around the rule that at most one session
    is current. Every method is one transaction: a thrown exception rolls it back,
    so a call that returns `Err` leaves the table as it was. */
module AcademicSessionService {
  import opened Common
  import opened Entities
  import opened Jpa
  import opened AcademicSessionRepository

  /** Distinct sessions have distinct names. */
  predicate NamesUnique(rows: SessionRows) {
    forall j, k :: j in rows && k in rows && j != k ==> rows[j].name != rows[k].name
  }

  /** What every committed state of the session table satisfies. */
  predicate Consistent(rows: SessionRows) {
    AtMostOneCurrent(rows) && NamesUnique(rows)
  }

  /** AcademicSessionMapper.toEntity; a missing isCurrent is stored as not current. */
  function ToEntity(req: AcademicSessionRequest): (e: AcademicSession)
    ensures e.name == req.name && e.startDate == req.startDate && e.endDate == req.endDate
    ensures e.isCurrent <==> req.isCurrent == Some(true)
  {
    AcademicSession(req.name, req.startDate, req.endDate, req.isCurrent == Some(true))
  }

  /** AcademicSessionMapper.updateEntityFromRequest: a null property of the request
      leaves the entity's value in place; with every property present it builds the
      entity toEntity would. */
  function UpdateEntityFromRequest(req: AcademicSessionRequest, s: AcademicSession): (e: AcademicSession)
    ensures e.name == req.name && e.startDate == req.startDate && e.endDate == req.endDate
    ensures req.isCurrent.None? ==> e.isCurrent == s.isCurrent
    ensures req.isCurrent.Some? ==> e == ToEntity(req)
  {
    AcademicSession(req.name, req.startDate, req.endDate,
                    if req.isCurrent.Some? then req.isCurrent.value else s.isCurrent)
  }

  /** Applying the same request a second time changes nothing more. */
  lemma UpdateEntityIdempotent(req: AcademicSessionRequest, s: AcademicSession)
    ensures UpdateEntityFromRequest(req, UpdateEntityFromRequest(req, s)) == UpdateEntityFromRequest(req, s)
  {
  }

  /** findSessionByIdOrThrow */
  function FindSessionByIdOrThrow(rows: SessionRows, id: nat): (r: Result<AcademicSession>)
    ensures r.Ok? <==> id in rows
    ensures r.Ok? ==> r.value == rows[id]
    ensures r.Err? ==> r.error == NotFound
  {
    if id in rows then Ok(rows[id]) else Err(NotFound)
  }

  /** The table after clearing every flag and storing the current session `s`
      under `id`: `id` is then the only current session. */
  function SaveAsSoleCurrent(rows: SessionRows, id: nat, s: AcademicSession): (r: SessionRows)
    requires s.isCurrent
    ensures r.Keys == rows.Keys + {id} && r[id] == s
    ensures forall k :: k in r ==> (r[k].isCurrent <==> k == id)
    ensures AtMostOneCurrent(r)
  {
    UnsetAll(rows)[id := s]
  }

  /** The bulk update keeps the names, so it keeps them distinct. */
  lemma UnsetAllKeepsNames(rows: SessionRows)
    ensures forall k :: k in rows ==> UnsetAll(rows)[k].name == rows[k].name
    ensures NamesUnique(rows) ==> NamesUnique(UnsetAll(rows))
  {
    forall k | k in rows ensures UnsetAll(rows)[k].name == rows[k].name {
      assert UnsetAll(rows)[k].(isCurrent := rows[k].isCurrent) == rows[k];
    }
  }

  /** The table after setCurrentSession(id) commits: `id` is the only current
      session, and nothing but the flags changes. */
  function SetCurrentRows(rows: SessionRows, id: nat): (r: SessionRows)
    requires id in rows
    ensures r.Keys == rows.Keys
    ensures forall k :: k in r ==> (r[k].isCurrent <==> k == id)
    ensures forall k :: k in r ==> r[k].(isCurrent := rows[k].isCurrent) == rows[k]
  {
    SaveAsSoleCurrent(rows, id, rows[id].(isCurrent := true))
  }

  /** Calling setCurrentSession again on the same id changes nothing. */
  lemma {:induction false} SetCurrentIdempotent(rows: SessionRows, id: nat)
    requires id in rows
    ensures SetCurrentRows(SetCurrentRows(rows, id), id) == SetCurrentRows(rows, id)
  {
    var once := SetCurrentRows(rows, id);
    var twice := SetCurrentRows(once, id);
    forall k | k in once ensures twice[k] == once[k] {
      assert twice[k].(isCurrent := once[k].isCurrent) == once[k];
    }
  }

  /** setCurrentSession(a) followed by setCurrentSession(b) leaves the table as
      setCurrentSession(b) alone would: b current, a (when a != b) not. */
  lemma {:induction false} SetCurrentLastWins(rows: SessionRows, a: nat, b: nat)
    requires a in rows && b in rows
    ensures SetCurrentRows(SetCurrentRows(rows, a), b) == SetCurrentRows(rows, b)
  {
    var first := SetCurrentRows(rows, a);
    var left := SetCurrentRows(first, b);
    var right := SetCurrentRows(rows, b);
    forall k | k in rows ensures left[k] == right[k] {
      assert first[k].(isCurrent := rows[k].isCurrent) == rows[k];
      assert left[k].(isCurrent := first[k].isCurrent) == first[k];
      assert right[k].(isCurrent := rows[k].isCurrent) == rows[k];
    }
  }

  /** createSession */
  method CreateSession(repo: Table<AcademicSession>, req: AcademicSessionRequest)
    returns (r: Result<(nat, AcademicSession)>)
    requires repo.Valid() && Consistent(repo.rows)
    modifies repo
    ensures repo.Valid() && Consistent(repo.rows)
    ensures r == Err(DuplicateResource) <==> ExistsByName(old(repo.rows), req.name)
    ensures r == Err(InvalidOperation)
        <==> !ExistsByName(old(repo.rows), req.name) && req.endDate.IsBefore(req.startDate)
    ensures r.Ok? <==> !ExistsByName(old(repo.rows), req.name) && !req.endDate.IsBefore(req.startDate)
    ensures r.Err? ==> repo.rows == old(repo.rows)
    ensures r.Ok? ==>
      var (id, s) := r.value;
      && id !in old(repo.rows) && s == ToEntity(req)
      && repo.rows == if req.isCurrent == Some(true) then SaveAsSoleCurrent(old(repo.rows), id, s)
                      else old(repo.rows)[id := s]
    ensures r.Ok? && req.isCurrent == Some(true) ==>
      forall k :: k in repo.rows ==> (repo.rows[k].isCurrent <==> k == r.value.0)
    ensures r.Ok? && req.isCurrent != Some(true) ==>
      forall k :: k in old(repo.rows) ==> k in repo.rows && repo.rows[k] == old(repo.rows)[k]
  {
    if ExistsByName(repo.rows, req.name) {
      return Err(DuplicateResource);
    }
    if req.endDate.IsBefore(req.startDate) {
      return Err(InvalidOperation);
    }
    if req.isCurrent == Some(true) {
      UnsetAllKeepsNames(repo.rows);
      UnsetAllCurrentSessions(repo);
    }
    var session := ToEntity(req);
    var id := repo.Insert(session);
    r := Ok((id, session));
  }

  /** getCurrentSession: the current session, or NotFound when none is set. */
  method GetCurrentSession(rows: SessionRows) returns (r: Result<(nat, AcademicSession)>)
    requires AtMostOneCurrent(rows)
    ensures r.Err? <==> forall k :: k in rows ==> !rows[k].isCurrent
    ensures r.Err? ==> r.error == NotFound
    ensures r.Ok? ==> r.value.0 in rows && r.value.1 == rows[r.value.0] && r.value.1.isCurrent
    ensures r.Ok? ==> forall k :: k in rows && rows[k].isCurrent ==> k == r.value.0
  {
    var found := FindByIsCurrentTrue(rows);
    if found.None? {
      return Err(NotFound);
    }
    r := Ok((found.value, rows[found.value]));
  }

  /** updateSession */
  method UpdateSession(repo: Table<AcademicSession>, id: nat, req: AcademicSessionRequest)
    returns (r: Result<(nat, AcademicSession)>)
    requires repo.Valid() && Consistent(repo.rows)
    modifies repo
    ensures repo.Valid() && Consistent(repo.rows)
    ensures r == Err(NotFound) <==> id !in old(repo.rows)
    ensures r == Err(DuplicateResource)
        <==> id in old(repo.rows) && ExistsByNameAndIdNot(old(repo.rows), req.name, id)
    ensures r == Err(InvalidOperation)
        <==> id in old(repo.rows) && !ExistsByNameAndIdNot(old(repo.rows), req.name, id)
             && req.endDate.IsBefore(req.startDate)
    ensures r.Ok? <==> id in old(repo.rows) && !ExistsByNameAndIdNot(old(repo.rows), req.name, id)
                       && !req.endDate.IsBefore(req.startDate)
    ensures r.Err? ==> repo.rows == old(repo.rows)
    ensures r.Ok? ==>
      && r.value.0 == id
      && r.value.1 == UpdateEntityFromRequest(req, old(repo.rows)[id])
      && repo.rows == if req.isCurrent == Some(true) then SaveAsSoleCurrent(old(repo.rows), id, r.value.1)
                      else old(repo.rows)[id := r.value.1]
    ensures r.Ok? ==>
      && repo.rows[id].name == req.name
      && repo.rows[id].startDate == req.startDate && repo.rows[id].endDate == req.endDate
      && repo.rows[id].isCurrent == (if req.isCurrent.Some? then req.isCurrent.value else old(repo.rows)[id].isCurrent)
    ensures r.Ok? && req.isCurrent == Some(true) ==>
      forall k :: k in repo.rows ==> (repo.rows[k].isCurrent <==> k == id)
    ensures r.Ok? && req.isCurrent != Some(true) ==>
      forall k :: k in old(repo.rows) && k != id ==> k in repo.rows && repo.rows[k] == old(repo.rows)[k]
  {
    var found := FindSessionByIdOrThrow(repo.rows, id);
    if found.Err? {
      return Err(found.error);
    }
    var session := found.value;
    if ExistsByNameAndIdNot(repo.rows, req.name, id) {
      return Err(DuplicateResource);
    }
    if req.endDate.IsBefore(req.startDate) {
      return Err(InvalidOperation);
    }
    if req.isCurrent == Some(true) {
      UnsetAllKeepsNames(repo.rows);
      UnsetAllCurrentSessions(repo);
    }
    session := UpdateEntityFromRequest(req, session);
    repo.Update(id, session);
    r := Ok((id, session));
  }

  /** setCurrentSession */
  method SetCurrentSession(repo: Table<AcademicSession>, id: nat) returns (r: Result<(nat, AcademicSession)>)
    requires repo.Valid() && Consistent(repo.rows)
    modifies repo
    ensures repo.Valid() && Consistent(repo.rows)
    ensures r.Err? <==> id !in old(repo.rows)
    ensures r.Err? ==> r.error == NotFound && repo.rows == old(repo.rows)
    ensures r.Ok? ==> repo.rows == SetCurrentRows(old(repo.rows), id) && r.value == (id, repo.rows[id])
  {
    var found := FindSessionByIdOrThrow(repo.rows, id);
    if found.Err? {
      return Err(found.error);
    }
    var session := found.value;
    UnsetAllKeepsNames(repo.rows);
    UnsetAllCurrentSessions(repo);
    session := session.(isCurrent := true);
    repo.Update(id, session);
    r := Ok((id, session));
  }

  /** deleteSession: the current session cannot be deleted. */
  method DeleteSession(repo: Table<AcademicSession>, id: nat) returns (r: Result<()>)
    requires repo.Valid() && Consistent(repo.rows)
    modifies repo
    ensures repo.Valid() && Consistent(repo.rows)
    ensures r == Err(NotFound) <==> id !in old(repo.rows)
    ensures r == Err(InvalidOperation) <==> id in old(repo.rows) && old(repo.rows)[id].isCurrent
    ensures r.Ok? <==> id in old(repo.rows) && !old(repo.rows)[id].isCurrent
    ensures r.Err? ==> repo.rows == old(repo.rows)
    ensures r.Ok? ==> repo.rows == old(repo.rows) - {id} && id in old(repo.rows)
  {
    var found := FindSessionByIdOrThrow(repo.rows, id);
    if found.Err? {
      return Err(found.error);
    }
    if found.value.isCurrent {
      return Err(InvalidOperation);
    }
    repo.Delete(id);
    r := Ok(());
  }

  // ---------------------------------------------------------------------------
  // The table as the source actually commits it. The entity is loaded into the
  // persistence context before the bulk update; that update writes to the database
  // without touching the loaded entity, and at commit the entity's row is written
  // only if the entity differs from the state it was loaded in.

  /** The committed table: `afterBulk` with the row `id` written back only when the
      loaded entity was changed. */
  function FlushLoaded(afterBulk: SessionRows, id: nat, loaded: AcademicSession, entity: AcademicSession)
    : (r: SessionRows)
    requires id in afterBulk
    ensures r.Keys == afterBulk.Keys
    ensures forall k :: k in afterBulk && k != id ==> r[k] == afterBulk[k]
    ensures entity == loaded ==> r[id] == afterBulk[id]
    ensures entity != loaded ==> r[id] == entity
  {
    if entity == loaded then afterBulk else afterBulk[id := entity]
  }

  /** setCurrentSession as committed by the source. On a session that is not yet
      current it agrees with the corrected SetCurrentRows; on the current one it
      leaves no session current. */
  function SetCurrentAsFlushed(rows: SessionRows, id: nat): (r: SessionRows)
    requires id in rows
    ensures r.Keys == rows.Keys
    ensures !rows[id].isCurrent ==> r == SetCurrentRows(rows, id)
    ensures rows[id].isCurrent ==> forall k :: k in r ==> !r[k].isCurrent
  {
    FlushLoaded(UnsetAll(rows), id, rows[id], rows[id].(isCurrent := true))
  }

  /** updateSession with isCurrent = true, as committed by the source. When the
      request changes the loaded entity it agrees with the corrected SaveAsSoleCurrent;
      when it resubmits the entity unchanged, no session is left current. */
  function UpdateCurrentAsFlushed(rows: SessionRows, id: nat, req: AcademicSessionRequest): (r: SessionRows)
    requires id in rows && req.isCurrent == Some(true)
    ensures r.Keys == rows.Keys
    ensures UpdateEntityFromRequest(req, rows[id]) != rows[id] ==>
              r == SaveAsSoleCurrent(rows, id, UpdateEntityFromRequest(req, rows[id]))
    ensures UpdateEntityFromRequest(req, rows[id]) == rows[id] ==> forall k :: k in r ==> !r[k].isCurrent
  {
    FlushLoaded(UnsetAll(rows), id, rows[id], UpdateEntityFromRequest(req, rows[id]))
  }

  /** Setting the session that is already current as current leaves no session
      current at all, where the corrected SetCurrentRows keeps it current. */
  lemma SetCurrentOnCurrentClearsAll(rows: SessionRows, id: nat)
    requires id in rows && rows[id].isCurrent
    ensures forall k :: k in SetCurrentAsFlushed(rows, id) ==> !SetCurrentAsFlushed(rows, id)[k].isCurrent
    ensures SetCurrentRows(rows, id)[id].isCurrent
  {
  }

  /** The same happens to an update that resubmits the current session unchanged
      with isCurrent = true. */
  lemma UpdateUnchangedCurrentClearsAll(rows: SessionRows, id: nat, req: AcademicSessionRequest)
    requires id in rows && rows[id].isCurrent && req.isCurrent == Some(true)
    requires req.name == rows[id].name && req.startDate == rows[id].startDate && req.endDate == rows[id].endDate
    ensures forall k :: k in UpdateCurrentAsFlushed(rows, id, req) ==> !UpdateCurrentAsFlushed(rows, id, req)[k].isCurrent
  {
  }

  /** A concrete run: calling setCurrentSession twice on a one-session table leaves
      the session current after the first call and not current after the second. */
  lemma SetCurrentAsFlushedNotIdempotent()
    ensures
      var d := LocalDate(2024, 9, 1);
      var rows := map[1 := AcademicSession("2024-2025", d, d, false)];
      && SetCurrentAsFlushed(rows, 1)[1].isCurrent
      && !SetCurrentAsFlushed(SetCurrentAsFlushed(rows, 1), 1)[1].isCurrent
  {
  }
}

=== FILE: academic_session_store.dfy ===
/** The frontend's signal store for academic sessions: a client-side cache of the
    session list plus the selected and current sessions. Each success handler
    computes a new list by appending, mapping by id or filtering, and patches the
    store's fields; each error handler records the message. */
module AcademicSessionStore {
  import opened Common

  /** AcademicSessionResponse as the frontend receives it (timestamps left out). */
  datatype SessionResponse = SessionResponse(
    id: int, name: string, startDate: string, endDate: string, isCurrent: bool)

  /** `sessions.map(s => s.id === id ? updated : s)` */
  function ReplaceById(sessions: seq<SessionResponse>, id: int, updated: SessionResponse): (r: seq<SessionResponse>)
    ensures |r| == |sessions|
    ensures forall i :: 0 <= i < |r| ==> r[i] == (if sessions[i].id == id then updated else sessions[i])
  {
    if sessions == [] then []
    else [if sessions[0].id == id then updated else sessions[0]] + ReplaceById(sessions[1..], id, updated)
  }

  /** `sessions.map(s => ({...s, isCurrent: s.id === id}))` */
  function MarkCurrent(sessions: seq<SessionResponse>, id: int): (r: seq<SessionResponse>)
    ensures |r| == |sessions|
    ensures forall i :: 0 <= i < |r| ==> r[i].isCurrent == (sessions[i].id == id)
    ensures forall i :: 0 <= i < |r| ==> r[i].(isCurrent := sessions[i].isCurrent) == sessions[i]
  {
    if sessions == [] then []
    else [sessions[0].(isCurrent := sessions[0].id == id)] + MarkCurrent(sessions[1..], id)
  }

  /** `sessions.filter(s => s.id !== id)` */
  function RemoveById(sessions: seq<SessionResponse>, id: int): (r: seq<SessionResponse>)
    ensures forall x :: x in r <==> x in sessions && x.id != id
    ensures |r| <= |sessions|
  {
    if sessions == [] then []
    else if sessions[0].id != id then [sessions[0]] + RemoveById(sessions[1..], id)
    else RemoveById(sessions[1..], id)
  }

  /** The cached sessions have pairwise distinct ids. */
  predicate DistinctIds(sessions: seq<SessionResponse>) {
    forall i, j :: 0 <= i < j < |sessions| ==> sessions[i].id != sessions[j].id
  }

  /** At most one cached entry is flagged current. */
  predicate AtMostOneCurrent(sessions: seq<SessionResponse>) {
    forall i, j :: 0 <= i < |sessions| && 0 <= j < |sessions| && sessions[i].isCurrent && sessions[j].isCurrent
      ==> i == j
  }

  /** After setCurrentSession succeeds, a cache with distinct ids has at most one
      current entry, and it is the one with the chosen id. */
  lemma MarkCurrentAtMostOne(sessions: seq<SessionResponse>, id: int)
    requires DistinctIds(sessions)
    ensures AtMostOneCurrent(MarkCurrent(sessions, id))
    ensures forall i :: 0 <= i < |sessions| && MarkCurrent(sessions, id)[i].isCurrent ==> sessions[i].id == id
  {
  }

  /** The filter distributes over concatenation: what remains keeps its order. */
  lemma {:induction false} RemoveByIdConcat(a: seq<SessionResponse>, b: seq<SessionResponse>, id: int)
    ensures RemoveById(a + b, id) == RemoveById(a, id) + RemoveById(b, id)
  {
    if a == [] {
      assert a + b == b;
    } else {
      assert (a + b)[1..] == a[1..] + b;
      RemoveByIdConcat(a[1..], b, id);
    }
  }

  /** An id the cache does not hold filters nothing out. */
  lemma {:induction false} RemoveByIdAbsent(sessions: seq<SessionResponse>, id: int)
    requires forall i :: 0 <= i < |sessions| ==> sessions[i].id != id
    ensures RemoveById(sessions, id) == sessions
  {
    if sessions != [] {
      RemoveByIdAbsent(sessions[1..], id);
    }
  }

  /** Filtering keeps a cache free of a second current entry. */
  lemma {:induction false} RemoveByIdKeepsAtMostOneCurrent(sessions: seq<SessionResponse>, id: int)
    requires AtMostOneCurrent(sessions)
    ensures AtMostOneCurrent(RemoveById(sessions, id))
  {
    if sessions != [] {
      var rest := sessions[1..];
      assert AtMostOneCurrent(rest) by {
        forall i, j | 0 <= i < |rest| && 0 <= j < |rest| && rest[i].isCurrent && rest[j].isCurrent
          ensures i == j
        {
          assert sessions[i + 1] == rest[i] && sessions[j + 1] == rest[j];
        }
      }
      RemoveByIdKeepsAtMostOneCurrent(rest, id);
      var tail := RemoveById(rest, id);
      if sessions[0].id != id && sessions[0].isCurrent {
        forall x | x in tail ensures !x.isCurrent {
          var j :| 0 <= j < |rest| && rest[j] == x;
          assert sessions[j + 1] == x;
        }
        var r := [sessions[0]] + tail;
        forall i | 0 < i < |r| ensures !r[i].isCurrent {
          assert r[i] == tail[i - 1] && tail[i - 1] in tail;
        }
      } else if sessions[0].id != id {
        var r := [sessions[0]] + tail;
        forall i, j | 0 <= i < |r| && 0 <= j < |r| && r[i].isCurrent && r[j].isCurrent
          ensures i == j
        {
          assert r[i] == tail[i - 1] && r[j] == tail[j - 1];
        }
      }
    }
  }

  /** createSession's success handler appends without touching the other entries'
      flags: a cache that already shows a current session shows two after a current
      session is created, until the list is loaded again. */
  lemma AppendingCurrentKeepsOldFlag(sessions: seq<SessionResponse>, k: nat, created: SessionResponse)
    requires k < |sessions| && sessions[k].isCurrent && created.isCurrent
    ensures !AtMostOneCurrent(sessions + [created])
  {
    var r := sessions + [created];
    assert r[k].isCurrent && r[|sessions|].isCurrent;
  }

  class Store {
    var sessions: seq<SessionResponse>
    var selectedSession: Option<SessionResponse>
    var currentSession: Option<SessionResponse>
    var isLoading: bool
    var error: Option<string>

    /** The initial state. */
    constructor ()
      ensures sessions == [] && selectedSession == None && currentSession == None
      ensures !isLoading && error == None
    {
      sessions := [];
      selectedSession := None;
      currentSession := None;
      isLoading := false;
      error := None;
    }

    /** The computed signal sessionCount: zero exactly when no session is cached. */
    function SessionCount(): (n: nat)
      reads this
      ensures n == 0 <==> sessions == []
    {
      |sessions|
    }

    /** The computed signal hasCurrentSession: there is a current session to show. */
    predicate HasCurrentSession()
      reads this
      ensures HasCurrentSession() <==> currentSession != None
    {
      currentSession.Some?
    }

    /** The first step of every request: loading, and no error. */
    method StartRequest()
      modifies this
      ensures isLoading && error == None
      ensures sessions == old(sessions) && selectedSession == old(selectedSession)
      ensures currentSession == old(currentSession)
    {
      isLoading := true;
      error := None;
    }

    /** Every request's error handler: only the message and the loading flag change. */
    method RequestFailed(message: string)
      modifies this
      ensures error == Some(message) && !isLoading
      ensures sessions == old(sessions) && selectedSession == old(selectedSession)
      ensures currentSession == old(currentSession)
    {
      error := Some(message);
      isLoading := false;
    }

    /** loadSessions succeeded. */
    method LoadSessionsSucceeded(loaded: seq<SessionResponse>)
      modifies this
      ensures sessions == loaded && !isLoading
      ensures selectedSession == old(selectedSession) && currentSession == old(currentSession)
      ensures error == old(error)
    {
      sessions := loaded;
      isLoading := false;
    }

    /** loadCurrentSession succeeded. */
    method LoadCurrentSessionSucceeded(current: Option<SessionResponse>)
      modifies this
      ensures currentSession == current && !isLoading
      ensures sessions == old(sessions) && selectedSession == old(selectedSession) && error == old(error)
    {
      currentSession := current;
      isLoading := false;
    }

    /** createSession succeeded: the new session is appended, and it becomes the
        current session only if it is flagged current. */
    method CreateSucceeded(created: SessionResponse)
      modifies this
      ensures sessions == old(sessions) + [created] && SessionCount() == old(SessionCount()) + 1
      ensures currentSession == if created.isCurrent then Some(created) else old(currentSession)
      ensures created.isCurrent ==> HasCurrentSession()
      ensures selectedSession == old(selectedSession) && !isLoading && error == old(error)
    {
      sessions := sessions + [created];
      if created.isCurrent {
        currentSession := Some(created);
      }
      isLoading := false;
    }

    /** updateSession(id) succeeded. */
    method UpdateSucceeded(id: int, updated: SessionResponse)
      modifies this
      ensures sessions == ReplaceById(old(sessions), id, updated) && SessionCount() == old(SessionCount())
      ensures selectedSession ==
                if old(selectedSession).Some? && old(selectedSession).value.id == id then Some(updated)
                else old(selectedSession)
      ensures currentSession == if updated.isCurrent then Some(updated) else old(currentSession)
      ensures !isLoading && error == old(error)
    {
      sessions := ReplaceById(sessions, id, updated);
      if selectedSession.Some? && selectedSession.value.id == id {
        selectedSession := Some(updated);
      }
      if updated.isCurrent {
        currentSession := Some(updated);
      }
      isLoading := false;
    }

    /** setCurrentSession(id) succeeded with the server's `current`. */
    method SetCurrentSucceeded(id: int, current: SessionResponse)
      modifies this
      ensures sessions == MarkCurrent(old(sessions), id) && SessionCount() == old(SessionCount())
      ensures DistinctIds(old(sessions)) ==> AtMostOneCurrent(sessions)
      ensures currentSession == Some(current) && HasCurrentSession()
      ensures selectedSession == old(selectedSession) && !isLoading && error == old(error)
    {
      if DistinctIds(sessions) {
        MarkCurrentAtMostOne(sessions, id);
      }
      sessions := MarkCurrent(sessions, id);
      currentSession := Some(current);
      isLoading := false;
    }

    /** deleteSession(id) succeeded: the entries with that id go, and so do the
        selected and current sessions if they carry it. */
    method DeleteSucceeded(id: int)
      modifies this
      ensures sessions == RemoveById(old(sessions), id) && SessionCount() <= old(SessionCount())
      ensures AtMostOneCurrent(old(sessions)) ==> AtMostOneCurrent(sessions)
      ensures selectedSession ==
                if old(selectedSession).Some? && old(selectedSession).value.id == id then None
                else old(selectedSession)
      ensures currentSession ==
                if old(currentSession).Some? && old(currentSession).value.id == id then None
                else old(currentSession)
      ensures HasCurrentSession() ==> currentSession.value.id != id
      ensures !isLoading && error == old(error)
    {
      if AtMostOneCurrent(sessions) {
        RemoveByIdKeepsAtMostOneCurrent(sessions, id);
      }
      sessions := RemoveById(sessions, id);
      if selectedSession.Some? && selectedSession.value.id == id {
        selectedSession := None;
      }
      if currentSession.Some? && currentSession.value.id == id {
        currentSession := None;
      }
      isLoading := false;
    }

    /** selectSession */
    method SelectSession(session: Option<SessionResponse>)
      modifies this
      ensures selectedSession == session
      ensures sessions == old(sessions) && currentSession == old(currentSession)
      ensures isLoading == old(isLoading) && error == old(error)
    {
      selectedSession := session;
    }

    /** clearError */
    method ClearError()
      modifies this
      ensures error == None
      ensures sessions == old(sessions) && selectedSession == old(selectedSession)
      ensures currentSession == old(currentSession) && isLoading == old(isLoading)
    {
      error := None;
    }
  }
}

=== FILE: common.dfy ===
/** Outcome types shared by the backend and the frontend models. */
module Common {

  /** A value that may be absent (a Java `null`, a TypeScript `null`/`undefined`). */
  datatype Option<T> = None | Some(value: T)

  /** The exceptions a setup service can throw. Each one rolls back the service's
      transaction, so a call that ends in one of them leaves every table as it was. */
  datatype ErrorKind =
    | NotFound            // ResourceNotFoundException
    | DuplicateResource   // DuplicateResourceException
    | InvalidOperation    // InvalidOperationException
    | IntegrityViolation  // the database refusing a delete that other rows still reference

  /** The outcome of one service call: the response, or the exception it threw. */
  datatype Result<T> = Ok(value: T) | Err(error: ErrorKind)
}

=== FILE: ecmascript_date.dfy ===
/** The day arithmetic of ECMAScript Date objects (ECMA-262, section 21.4.1,
    "Overview of Date Objects and Definitions of Abstract Operations"): day numbers
    counted from 1 January 1970 in the proleptic Gregorian calendar. Months are
    zero-based here, as in `new Date(year, monthIndex, date)`. */
module EcmaScriptDate {

  /** DaysInYear */
  function DaysInYear(y: int): int {
    if y % 4 != 0 then 365
    else if y % 100 != 0 then 366
    else if y % 400 != 0 then 365
    else 366
  }

  /** DayFromYear: the day number of 1 January of year y. Division by a positive
      constant is floor division, as in the standard. */
  function DayFromYear(y: int): int {
    365 * (y - 1970) + (y - 1969) / 4 - (y - 1901) / 100 + (y - 1601) / 400
  }

  /** The days of month `m` (zero-based) of year y. */
  function DaysInMonth(y: int, m: int): int
    requires 0 <= m < 12
  {
    if m == 1 then (if DaysInYear(y) == 366 then 29 else 28)
    else if m == 3 || m == 5 || m == 8 || m == 10 then 30
    else 31
  }

  /** The days of year y before the first of month `m` (zero-based). */
  function DaysBeforeMonth(y: int, m: int): int
    requires 0 <= m < 12
  {
    var cumulative := [0, 31, 59, 90, 120, 151, 181, 212, 243, 273, 304, 334];
    cumulative[m] + (if m >= 2 && DaysInYear(y) == 366 then 1 else 0)
  }

  /** MakeDay: a month outside 0-11 carries into the year (floor division), and a
      date past the end of its month runs on into the next. A month within 0-11
      carries nothing, which the first branch writes out. */
  function MakeDay(year: int, month: int, date: int): int {
    if 0 <= month < 12 then
      DayFromYear(year) + DaysBeforeMonth(year, month) + date - 1
    else
      var ym := year + month / 12;
      var mn := month % 12;
      DayFromYear(ym) + DaysBeforeMonth(ym, mn) + date - 1
  }

  /** The local day number of `new Date(year, monthIndex, date)`: a year from 0 to 99
      means 1900 to 1999. */
  function ConstructedDay(year: int, monthIndex: int, date: int): int {
    MakeDay(if 0 <= year <= 99 then 1900 + year else year, monthIndex, date)
  }

  /** A date of the calendar: a month 0-11 and a day within it. */
  predicate ValidDay(y: int, m: int, d: int) {
    0 <= m < 12 && 1 <= d <= DaysInMonth(y, m)
  }

  /** (y1, m1, d1) comes before (y2, m2, d2) in lexicographic order. */
  predicate LexBefore(y1: int, m1: int, d1: int, y2: int, m2: int, d2: int) {
    || y1 < y2
    || (y1 == y2 && m1 < m2)
    || (y1 == y2 && m1 == m2 && d1 < d2)
  }

  /** Each floor quotient in DayFromYear grows by one exactly when the next year is
      a multiple of its divisor. */
  lemma LeapTermSteps(y: int)
    ensures (y - 1968) / 4 - (y - 1969) / 4 == (if y % 4 == 0 then 1 else 0)
    ensures (y - 1900) / 100 - (y - 1901) / 100 == (if y % 100 == 0 then 1 else 0)
    ensures (y - 1600) / 400 - (y - 1601) / 400 == (if y % 400 == 0 then 1 else 0)
  {
    assert (y - 1968) / 4 == y / 4 - 492;
    assert (y - 1969) / 4 == (y - 1) / 4 - 492;
    assert (y - 1900) / 100 == y / 100 - 19;
    assert (y - 1901) / 100 == (y - 1) / 100 - 19;
    assert (y - 1600) / 400 == y / 400 - 4;
    assert (y - 1601) / 400 == (y - 1) / 400 - 4;
  }

  /** A multiple of 400 is a multiple of 100. */
  lemma MultipleOf400(y: int)
    requires y % 400 == 0
    ensures y % 100 == 0
  {
    var q := y / 400;
    assert y == 400 * q;
    assert y - 100 * (4 * q) == 0;
  }

  /** A multiple of 100 is a multiple of 4. */
  lemma MultipleOf100(y: int)
    requires y % 100 == 0
    ensures y % 4 == 0
  {
    var q := y / 100;
    assert y == 100 * q;
    assert y - 4 * (25 * q) == 0;
  }

  /** DaysInYear as 365 plus the three leap-year corrections. */
  lemma DaysInYearTerms(y: int)
    ensures DaysInYear(y) == 365 + (if y % 4 == 0 then 1 else 0) - (if y % 100 == 0 then 1 else 0)
                                 + (if y % 400 == 0 then 1 else 0)
  {
    if y % 400 == 0 {
      MultipleOf400(y);
    }
    if y % 100 == 0 {
      MultipleOf100(y);
    }
  }

  /** DayFromYear advances by the length of the year. */
  lemma DayFromYearStep(y: int)
    ensures DayFromYear(y + 1) == DayFromYear(y) + DaysInYear(y)
  {
    LeapTermSteps(y);
    DaysInYearTerms(y);
    assert DayFromYear(y + 1) == 365 * (y - 1969) + (y - 1968) / 4 - (y - 1900) / 100 + (y - 1600) / 400;
  }

  /** Every day of an earlier year comes before the first day of a later one. */
  lemma {:induction false} DayFromYearIncreasing(y1: int, y2: int)
    requires y1 < y2
    ensures DayFromYear(y1) + DaysInYear(y1) <= DayFromYear(y2)
    decreases y2 - y1
  {
    DayFromYearStep(y1);
    if y1 + 1 < y2 {
      DayFromYearIncreasing(y1 + 1, y2);
    }
  }

  /** The months of a year follow one another without overlap. */
  lemma MonthsIncreasing(y: int, m1: int, m2: int)
    requires 0 <= m1 < m2 < 12
    ensures DaysBeforeMonth(y, m1) + DaysInMonth(y, m1) <= DaysBeforeMonth(y, m2)
  {
  }

  /** The last month ends with the year. */
  lemma MonthsWithinYear(y: int, m: int)
    requires 0 <= m < 12
    ensures DaysBeforeMonth(y, m) + DaysInMonth(y, m) <= DaysInYear(y)
  {
  }

  /** Within a year no month carries over: MakeDay is the day of 1 January plus the
      days of the earlier months plus the date. */
  lemma MakeDayInYear(y: int, m: int, d: int)
    requires 0 <= m < 12
    ensures MakeDay(y, m, d) == DayFromYear(y) + DaysBeforeMonth(y, m) + d - 1
  {
  }

  /** No month starts before 1 January. */
  lemma DaysBeforeMonthNonNegative(y: int, m: int)
    requires 0 <= m < 12
    ensures 0 <= DaysBeforeMonth(y, m)
  {
  }

  /** A calendar date of an earlier year comes first. */
  lemma EarlierYearFirst(y1: int, m1: int, d1: int, y2: int, m2: int, d2: int)
    requires ValidDay(y1, m1, d1) && ValidDay(y2, m2, d2) && y1 < y2
    ensures MakeDay(y1, m1, d1) < MakeDay(y2, m2, d2)
  {
    MakeDayInYear(y1, m1, d1);
    MakeDayInYear(y2, m2, d2);
    MonthsWithinYear(y1, m1);
    DayFromYearIncreasing(y1, y2);
    DaysBeforeMonthNonNegative(y2, m2);
  }

  /** In one year, a calendar date of an earlier month comes first. */
  lemma EarlierMonthFirst(y: int, m1: int, d1: int, m2: int, d2: int)
    requires ValidDay(y, m1, d1) && ValidDay(y, m2, d2) && m1 < m2
    ensures MakeDay(y, m1, d1) < MakeDay(y, m2, d2)
  {
    MakeDayInYear(y, m1, d1);
    MakeDayInYear(y, m2, d2);
    MonthsIncreasing(y, m1, m2);
  }

  /** On calendar dates MakeDay is strictly increasing in (year, month, date). */
  lemma MakeDayIncreasing(y1: int, m1: int, d1: int, y2: int, m2: int, d2: int)
    requires ValidDay(y1, m1, d1) && ValidDay(y2, m2, d2)
    requires LexBefore(y1, m1, d1, y2, m2, d2)
    ensures MakeDay(y1, m1, d1) < MakeDay(y2, m2, d2)
  {
    if y1 < y2 {
      EarlierYearFirst(y1, m1, d1, y2, m2, d2);
    } else if m1 < m2 {
      EarlierMonthFirst(y1, m1, d1, m2, d2);
    } else {
      MakeDayInYear(y1, m1, d1);
      MakeDayInYear(y2, m2, d2);
    }
  }

  /** On calendar dates, comparing MakeDay numbers is comparing (year, month, date)
      lexicographically. */
  lemma MakeDayOrder(y1: int, m1: int, d1: int, y2: int, m2: int, d2: int)
    requires ValidDay(y1, m1, d1) && ValidDay(y2, m2, d2)
    ensures MakeDay(y1, m1, d1) < MakeDay(y2, m2, d2) <==> LexBefore(y1, m1, d1, y2, m2, d2)
  {
    if LexBefore(y1, m1, d1, y2, m2, d2) {
      MakeDayIncreasing(y1, m1, d1, y2, m2, d2);
    } else if LexBefore(y2, m2, d2, y1, m1, d1) {
      MakeDayIncreasing(y2, m2, d2, y1, m1, d1);
    }
  }

  /** The same holds for `new Date(year, monthIndex, date)` when the year is taken
      as it is (not 0-99). */
  lemma ConstructedDayOrder(y1: int, m1: int, d1: int, y2: int, m2: int, d2: int)
    requires ValidDay(y1, m1, d1) && ValidDay(y2, m2, d2)
    requires !(0 <= y1 <= 99) && !(0 <= y2 <= 99)
    ensures ConstructedDay(y1, m1, d1) < ConstructedDay(y2, m2, d2) <==> LexBefore(y1, m1, d1, y2, m2, d2)
  {
    MakeDayOrder(y1, m1, d1, y2, m2, d2);
  }

  /** And with a one-based month, as in `new Date(year, month - 1, day)`. */
  lemma OneBasedOrder(y1: int, mo1: int, d1: int, y2: int, mo2: int, d2: int)
    requires ValidDay(y1, mo1 - 1, d1) && ValidDay(y2, mo2 - 1, d2)
    requires !(0 <= y1 <= 99) && !(0 <= y2 <= 99)
    ensures ConstructedDay(y1, mo1 - 1, d1) < ConstructedDay(y2, mo2 - 1, d2) <==> LexBefore(y1, mo1, d1, y2, mo2, d2)
  {
    var m1, m2 := mo1 - 1, mo2 - 1;
    ConstructedDayOrder(y1, m1, d1, y2, m2, d2);
    assert LexBefore(y1, m1, d1, y2, m2, d2) <==> LexBefore(y1, mo1, d1, y2, mo2, d2);
  }
}

=== FILE: entities.dfy ===
/** The persistent records of the setup domain, the request bodies the services
    accept, and the relations between tables that the schema imposes. A record's id
    is not a field: it is the key under which its table stores it. */
module Entities {
  import opened Common

  /** java.time.LocalDate; `IsBefore` compares year, then month, then day. */
  datatype LocalDate = LocalDate(year: int, month: int, day: int) {
    predicate IsBefore(other: LocalDate) {
      || year < other.year
      || (year == other.year && month < other.month)
      || (year == other.year && month == other.month && day < other.day)
    }
  }

  /** A stored `isCurrent` of null is not current for any query or check of the
      services, so the flag is a plain boolean here. */
  datatype AcademicSession = AcademicSession(
    name: string, startDate: LocalDate, endDate: LocalDate, isCurrent: bool)

  /** A class and the ids of its subjects (the rows of the class_subjects join
      table that the class owns). Its sections are the section rows that point at it. */
  datatype SchoolClass = SchoolClass(name: string, subjects: set<nat>)

  /** A section and the id of the class it belongs to (a non-null foreign key). */
  datatype Section = Section(name: string, classId: nat)

  /** A subject; its code is optional. */
  datatype Subject = Subject(name: string, code: Option<string>)

  datatype AcademicSessionRequest = AcademicSessionRequest(
    name: string, startDate: LocalDate, endDate: LocalDate, isCurrent: Option<bool>)

  datatype SchoolClassRequest = SchoolClassRequest(name: string)

  datatype SectionRequest = SectionRequest(name: string, classId: nat)

  datatype SubjectRequest = SubjectRequest(name: string, code: Option<string>)

  datatype ClassSubjectAssignmentRequest = ClassSubjectAssignmentRequest(
    classId: nat, subjectIds: set<nat>)

  /** Character.isWhitespace: the Unicode space, line and paragraph separators other
      than the non-breaking ones, and the control characters U+0009-U+000D and
      U+001C-U+001F. */
  predicate IsWhitespace(c: char) {
    var n := c as int;
    || 0x09 <= n <= 0x0D
    || 0x1C <= n <= 0x20
    || n == 0x1680
    || 0x2000 <= n <= 0x2006
    || 0x2008 <= n <= 0x200A
    || n == 0x2028 || n == 0x2029 || n == 0x205F || n == 0x3000
  }

  /** String.isBlank: empty, or whitespace only. */
  predicate IsBlank(s: string) {
    forall i :: 0 <= i < |s| ==> IsWhitespace(s[i])
  }

  /** Every section points at a stored class. */
  predicate SectionsBelongToClasses(sections: map<nat, Section>, classes: map<nat, SchoolClass>) {
    forall k :: k in sections ==> sections[k].classId in classes
  }

  /** Every class_subjects row points at a stored subject. */
  predicate AssignedSubjectsExist(classes: map<nat, SchoolClass>, subjects: map<nat, Subject>) {
    forall k :: k in classes ==> classes[k].subjects <= subjects.Keys
  }
}

=== FILE: jpa_table.dfy ===
/** The part of a Spring Data JpaRepository the services use on every entity:
    findById (map lookup), save and delete, over a table whose ids the database
    generates. */
module Jpa {

  class Table<T> {
    /** The committed rows, keyed by id. */
    var rows: map<nat, T>
    /** The next value of the IDENTITY column. */
    var nextId: nat

    ghost predicate Valid()
      reads this
    {
      forall k :: k in rows ==> k < nextId
    }

    constructor ()
      ensures Valid() && rows == map[]
    {
      rows := map[];
      nextId := 1;
    }

    /** save() of a new entity: it is stored under an id no row has. */
    method Insert(x: T) returns (id: nat)
      requires Valid()
      modifies this
      ensures Valid()
      ensures id !in old(rows) && rows == old(rows)[id := x]
    {
      id := nextId;
      rows := rows[id := x];
      nextId := nextId + 1;
    }

    /** save() of an entity loaded from the table: its row is overwritten. */
    method Update(id: nat, x: T)
      requires Valid() && id in rows
      modifies this
      ensures Valid() && rows == old(rows)[id := x]
    {
      rows := rows[id := x];
    }

    /** delete() */
    method Delete(id: nat)
      requires Valid()
      modifies this
      ensures Valid() && rows == old(rows) - {id}
    {
      rows := rows - {id};
    }
  }
}

=== FILE: school_class_repository.dfy ===
/** SchoolClassRepository: the derived name queries over the class table. */
module SchoolClassRepository {
  import opened Entities

  type ClassRows = map<nat, SchoolClass>

  /** existsByName */
  function ExistsByName(rows: ClassRows, name: string): (b: bool)
    ensures b <==> exists k :: k in rows && rows[k].name == name
  {
    name in (set k | k in rows :: rows[k].name)
  }

  /** existsByNameAndIdNot */
  function ExistsByNameAndIdNot(rows: ClassRows, name: string, id: nat): (b: bool)
    ensures b <==> exists k :: k in rows && k != id && rows[k].name == name
  {
    name in (set k | k in rows && k != id :: rows[k].name)
  }
}

=== FILE: school_class_service.dfy ===
/** SchoolClassService: class CRUD and the class-to-subject assignment. Deleting a
    class removes the sections it owns (cascade with orphan removal on the class's
    section collection) and the join rows it owns. */
module SchoolClassService {
  import opened Common
  import opened Entities
  import opened Jpa
  import opened SchoolClassRepository
  import SectionRepository
  import SectionService
  import SubjectRepository

  /** Distinct classes have distinct names. */
  predicate NamesUnique(rows: ClassRows) {
    forall j, k :: j in rows && k in rows && j != k ==> rows[j].name != rows[k].name
  }

  /** The section table after the cascade of deleting class `classId`: the rows
      findBySchoolClassId(classId) would return are gone, the others stay. */
  function RemainingSections(rows: SectionRepository.SectionRows, classId: nat): (r: SectionRepository.SectionRows)
    ensures r.Keys == rows.Keys - SectionRepository.FindBySchoolClassId(rows, classId).Keys
    ensures forall k :: k in r ==> r[k] == rows[k] && r[k].classId != classId
  {
    map k | k in rows && rows[k].classId != classId :: rows[k]
  }

  /** createClass: a new class has no subjects and no sections. */
  method CreateClass(classes: Table<SchoolClass>, req: SchoolClassRequest) returns (r: Result<(nat, SchoolClass)>)
    requires classes.Valid() && NamesUnique(classes.rows)
    modifies classes
    ensures classes.Valid() && NamesUnique(classes.rows)
    ensures r.Err? <==> ExistsByName(old(classes.rows), req.name)
    ensures r.Err? ==> r.error == DuplicateResource && classes.rows == old(classes.rows)
    ensures r.Ok? ==>
      var (id, c) := r.value;
      && id !in old(classes.rows)
      && c == SchoolClass(req.name, {})
      && classes.rows == old(classes.rows)[id := c]
  {
    if ExistsByName(classes.rows, req.name) {
      return Err(DuplicateResource);
    }
    var schoolClass := SchoolClass(req.name, {});
    var id := classes.Insert(schoolClass);
    r := Ok((id, schoolClass));
  }

  /** updateClass: the duplicate check ignores the class itself, so keeping its own
      name succeeds. */
  method UpdateClass(classes: Table<SchoolClass>, id: nat, req: SchoolClassRequest) returns (r: Result<(nat, SchoolClass)>)
    requires classes.Valid() && NamesUnique(classes.rows)
    modifies classes
    ensures classes.Valid() && NamesUnique(classes.rows)
    ensures r == Err(NotFound) <==> id !in old(classes.rows)
    ensures r == Err(DuplicateResource)
        <==> id in old(classes.rows) && ExistsByNameAndIdNot(old(classes.rows), req.name, id)
    ensures r.Err? ==> classes.rows == old(classes.rows)
    ensures r.Ok? <==> id in old(classes.rows) && !ExistsByNameAndIdNot(old(classes.rows), req.name, id)
    ensures id in old(classes.rows) && old(classes.rows)[id].name == req.name ==> r.Ok?
    ensures r.Ok? ==>
      && r.value == (id, old(classes.rows)[id].(name := req.name))
      && classes.rows == old(classes.rows)[id := r.value.1]
  {
    if id !in classes.rows {
      return Err(NotFound);
    }
    var schoolClass := classes.rows[id];
    if ExistsByNameAndIdNot(classes.rows, req.name, id) {
      return Err(DuplicateResource);
    }
    schoolClass := schoolClass.(name := req.name);
    classes.Update(id, schoolClass);
    r := Ok((id, schoolClass));
  }

  /** deleteClass */
  method DeleteClass(classes: Table<SchoolClass>, sections: Table<Section>, id: nat) returns (r: Result<()>)
    requires classes.Valid() && sections.Valid()
    requires SectionService.Consistent(sections.rows, classes.rows)
    modifies classes, sections
    ensures classes.Valid() && sections.Valid()
    ensures SectionService.Consistent(sections.rows, classes.rows)
    ensures r.Err? <==> id !in old(classes.rows)
    ensures r.Err? ==> r.error == NotFound && classes.rows == old(classes.rows) && sections.rows == old(sections.rows)
    ensures r.Ok? ==>
      && classes.rows == old(classes.rows) - {id}
      && sections.rows == RemainingSections(old(sections.rows), id)
  {
    if id !in classes.rows {
      return Err(NotFound);
    }
    SectionService.RemovingKeepsNamesUnique(sections.rows, RemainingSections(sections.rows, id));
    sections.rows := RemainingSections(sections.rows, id);
    classes.Delete(id);
    r := Ok(());
  }

  /** assignSubjectsToClass: all or nothing, and the class's subjects become exactly
      the requested ones. */
  method AssignSubjectsToClass(classes: Table<SchoolClass>, subjects: Table<Subject>, req: ClassSubjectAssignmentRequest)
    returns (r: Result<(nat, SchoolClass)>)
    requires classes.Valid() && AssignedSubjectsExist(classes.rows, subjects.rows)
    modifies classes
    ensures classes.Valid() && AssignedSubjectsExist(classes.rows, subjects.rows)
    ensures r.Err? <==> req.classId !in old(classes.rows) || !(req.subjectIds <= subjects.rows.Keys)
    ensures r.Err? ==> r.error == NotFound && classes.rows == old(classes.rows)
    ensures r.Ok? ==>
      && r.value == (req.classId, old(classes.rows)[req.classId].(subjects := req.subjectIds))
      && classes.rows == old(classes.rows)[req.classId := r.value.1]
  {
    if req.classId !in classes.rows {
      return Err(NotFound);
    }
    var schoolClass := classes.rows[req.classId];
    var found := SubjectRepository.FindByIdIn(subjects.rows, req.subjectIds);
    SubjectRepository.FindByIdInSize(subjects.rows, req.subjectIds);
    if |found| != |req.subjectIds| {
      return Err(NotFound);
    }
    schoolClass := schoolClass.(subjects := found);
    classes.Update(req.classId, schoolClass);
    r := Ok((req.classId, schoolClass));
  }

  /** removeSubjectsFromClass: a filter on the class's subjects; ids it does not hold
      are ignored, and a second identical call removes nothing more. */
  method RemoveSubjectsFromClass(classes: Table<SchoolClass>, subjects: Table<Subject>, classId: nat, subjectIds: set<nat>)
    returns (r: Result<(nat, SchoolClass)>)
    requires classes.Valid() && AssignedSubjectsExist(classes.rows, subjects.rows)
    modifies classes
    ensures classes.Valid() && AssignedSubjectsExist(classes.rows, subjects.rows)
    ensures r.Err? <==> classId !in old(classes.rows)
    ensures r.Err? ==> r.error == NotFound && classes.rows == old(classes.rows)
    ensures r.Ok? ==>
      var was := old(classes.rows)[classId];
      && r.value == (classId, was.(subjects := was.subjects - subjectIds))
      && classes.rows == old(classes.rows)[classId := r.value.1]
    ensures r.Ok? ==> classes.rows[classId].subjects - subjectIds == classes.rows[classId].subjects
    ensures r.Ok? ==> classes.rows[classId].subjects <= old(classes.rows)[classId].subjects
  {
    if classId !in classes.rows {
      return Err(NotFound);
    }
    var schoolClass := classes.rows[classId];
    var kept := set s | s in schoolClass.subjects && s !in subjectIds;
    assert kept == schoolClass.subjects - subjectIds;
    schoolClass := schoolClass.(subjects := kept);
    classes.Update(classId, schoolClass);
    r := Ok((classId, schoolClass));
  }
}

=== FILE: section_repository.dfy ===
/** SectionRepository: the three JPQL queries over the section table. Each one
    filters on the owning class first, so sections of other classes never take
    part in them. */
module SectionRepository {
  import opened Entities

  type SectionRows = map<nat, Section>

  /** findBySchoolClassId: `SELECT s FROM Section s WHERE s.schoolClass.id = :classId`.
      The result carries no order (the query has no ORDER BY), so it is the
      sub-table of the matching rows. */
  function FindBySchoolClassId(rows: SectionRows, classId: nat): (r: SectionRows)
    ensures forall k :: k in r <==> k in rows && rows[k].classId == classId
    ensures forall k :: k in r ==> r[k] == rows[k]
  {
    map k | k in rows && rows[k].classId == classId :: rows[k]
  }

  /** existsBySchoolClassIdAndName: COUNT(s) > 0 over the rows of that class and name. */
  function ExistsBySchoolClassIdAndName(rows: SectionRows, classId: nat, name: string): (b: bool)
    ensures b <==> exists k :: k in rows && rows[k].classId == classId && rows[k].name == name
  {
    name in (set k | k in rows && rows[k].classId == classId :: rows[k].name)
  }

  /** existsBySchoolClassIdAndNameAndIdNot: as above, without the row `id`. */
  function ExistsBySchoolClassIdAndNameAndIdNot(rows: SectionRows, classId: nat, name: string, id: nat): (b: bool)
    ensures b <==> exists k :: k in rows && k != id && rows[k].classId == classId && rows[k].name == name
  {
    name in (set k | k in rows && k != id && rows[k].classId == classId :: rows[k].name)
  }

  /** The existence query asks whether the class's own sections contain the name. */
  lemma ExistsMeansFoundInClass(rows: SectionRows, classId: nat, name: string)
    ensures ExistsBySchoolClassIdAndName(rows, classId, name)
        <==> name in (set k | k in FindBySchoolClassId(rows, classId) :: FindBySchoolClassId(rows, classId)[k].name)
  {
    var found := FindBySchoolClassId(rows, classId);
    if ExistsBySchoolClassIdAndName(rows, classId, name) {
      var k :| k in rows && rows[k].classId == classId && rows[k].name == name;
      assert k in found && found[k].name == name;
    }
  }

  /** The IdNot variant implies the plain one, and equals it when the excluded row
      is absent, of another class, or of another name. */
  lemma IdNotImpliesExists(rows: SectionRows, classId: nat, name: string, id: nat)
    ensures ExistsBySchoolClassIdAndNameAndIdNot(rows, classId, name, id)
        ==> ExistsBySchoolClassIdAndName(rows, classId, name)
    ensures (id !in rows || rows[id].classId != classId || rows[id].name != name)
        ==> ExistsBySchoolClassIdAndNameAndIdNot(rows, classId, name, id)
            == ExistsBySchoolClassIdAndName(rows, classId, name)
  {
  }

  /** findBySchoolClassId ignores a row of another class. */
  lemma FindIgnoresOtherClass(rows: SectionRows, k: nat, s: Section, classId: nat)
    requires s.classId != classId
    requires k in rows ==> rows[k].classId != classId
    ensures FindBySchoolClassId(rows[k := s], classId) == FindBySchoolClassId(rows, classId)
    ensures FindBySchoolClassId(rows - {k}, classId) == FindBySchoolClassId(rows, classId)
  {
    assert FindBySchoolClassId(rows[k := s], classId).Keys == FindBySchoolClassId(rows, classId).Keys;
    assert FindBySchoolClassId(rows - {k}, classId).Keys == FindBySchoolClassId(rows, classId).Keys;
  }

  /** existsBySchoolClassIdAndNameAndIdNot ignores a row of another class. */
  lemma ExistsIgnoresOtherClass(rows: SectionRows, k: nat, s: Section, classId: nat, name: string, id: nat)
    requires s.classId != classId
    requires k in rows ==> rows[k].classId != classId
    ensures ExistsBySchoolClassIdAndNameAndIdNot(rows[k := s], classId, name, id)
         == ExistsBySchoolClassIdAndNameAndIdNot(rows, classId, name, id)
    ensures ExistsBySchoolClassIdAndNameAndIdNot(rows - {k}, classId, name, id)
         == ExistsBySchoolClassIdAndNameAndIdNot(rows, classId, name, id)
  {
    if ExistsBySchoolClassIdAndNameAndIdNot(rows, classId, name, id) {
      var j :| j in rows && j != id && rows[j].classId == classId && rows[j].name == name;
      assert j != k && j in rows - {k};
    }
    var after := rows[k := s];
    if ExistsBySchoolClassIdAndNameAndIdNot(after, classId, name, id) {
      var j :| j in after && j != id && after[j].classId == classId && after[j].name == name;
      assert j != k && j in rows;
    }
    if ExistsBySchoolClassIdAndNameAndIdNot(rows, classId, name, id) {
      var j :| j in rows && j != id && rows[j].classId == classId && rows[j].name == name;
      assert j != k && j in after;
    }
  }

  /** existsBySchoolClassIdAndName ignores a row of another class. */
  lemma PlainExistsIgnoresOtherClass(rows: SectionRows, k: nat, s: Section, classId: nat, name: string)
    requires s.classId != classId
    requires k in rows ==> rows[k].classId != classId
    ensures ExistsBySchoolClassIdAndName(rows[k := s], classId, name)
         == ExistsBySchoolClassIdAndName(rows, classId, name)
    ensures ExistsBySchoolClassIdAndName(rows - {k}, classId, name)
         == ExistsBySchoolClassIdAndName(rows, classId, name)
  {
    if ExistsBySchoolClassIdAndName(rows, classId, name) {
      var j :| j in rows && rows[j].classId == classId && rows[j].name == name;
      assert j != k && j in rows - {k};
    }
    var after := rows[k := s];
    if ExistsBySchoolClassIdAndName(after, classId, name) {
      var j :| j in after && after[j].classId == classId && after[j].name == name;
      assert j != k && j in rows;
    }
    if ExistsBySchoolClassIdAndName(rows, classId, name) {
      var j :| j in rows && rows[j].classId == classId && rows[j].name == name;
      assert j != k && j in after;
    }
  }

  /** Storing, replacing or removing a row that belongs to another class before and
      after leaves all three queries about `classId` unchanged. */
  lemma {:induction false} OtherClassesDoNotMatter(rows: SectionRows, k: nat, s: Section, classId: nat, name: string, id: nat)
    requires s.classId != classId
    requires k in rows ==> rows[k].classId != classId
    ensures FindBySchoolClassId(rows[k := s], classId) == FindBySchoolClassId(rows, classId)
    ensures FindBySchoolClassId(rows - {k}, classId) == FindBySchoolClassId(rows, classId)
    ensures ExistsBySchoolClassIdAndName(rows[k := s], classId, name)
         == ExistsBySchoolClassIdAndName(rows, classId, name)
    ensures ExistsBySchoolClassIdAndNameAndIdNot(rows[k := s], classId, name, id)
         == ExistsBySchoolClassIdAndNameAndIdNot(rows, classId, name, id)
    ensures ExistsBySchoolClassIdAndName(rows - {k}, classId, name)
         == ExistsBySchoolClassIdAndName(rows, classId, name)
    ensures ExistsBySchoolClassIdAndNameAndIdNot(rows - {k}, classId, name, id)
         == ExistsBySchoolClassIdAndNameAndIdNot(rows, classId, name, id)
  {
    FindIgnoresOtherClass(rows, k, s, classId);
    ExistsIgnoresOtherClass(rows, k, s, classId, name, id);
    PlainExistsIgnoresOtherClass(rows, k, s, classId, name);
  }
}

=== FILE: section_service.dfy ===
/** SectionService: sections are created, moved and renamed under the rule that a
    section name is unique within its class only. */
module SectionService {
  import opened Common
  import opened Entities
  import opened Jpa
  import opened SectionRepository

  /** Two sections of one class never share a name. */
  predicate NamesUniquePerClass(rows: SectionRows) {
    forall j, k :: j in rows && k in rows && j != k && rows[j].classId == rows[k].classId
      ==> rows[j].name != rows[k].name
  }

  /** What every committed state of the section table satisfies. */
  predicate Consistent(sections: SectionRows, classes: map<nat, SchoolClass>) {
    SectionsBelongToClasses(sections, classes) && NamesUniquePerClass(sections)
  }

  /** Removing sections never makes two names of one class collide. */
  lemma RemovingKeepsNamesUnique(rows: SectionRows, fewer: SectionRows)
    requires NamesUniquePerClass(rows)
    requires forall k :: k in fewer ==> k in rows && fewer[k] == rows[k]
    ensures NamesUniquePerClass(fewer)
  {
  }

  /** createSection */
  method CreateSection(sections: Table<Section>, classes: Table<SchoolClass>, req: SectionRequest)
    returns (r: Result<(nat, Section)>)
    requires sections.Valid() && Consistent(sections.rows, classes.rows)
    modifies sections
    ensures sections.Valid() && Consistent(sections.rows, classes.rows)
    ensures r == Err(NotFound) <==> req.classId !in classes.rows
    ensures r == Err(DuplicateResource)
        <==> req.classId in classes.rows && ExistsBySchoolClassIdAndName(old(sections.rows), req.classId, req.name)
    ensures r.Ok? <==> req.classId in classes.rows
                       && !ExistsBySchoolClassIdAndName(old(sections.rows), req.classId, req.name)
    ensures r.Err? ==> sections.rows == old(sections.rows)
    ensures r.Ok? ==>
      var (id, s) := r.value;
      && id !in old(sections.rows)
      && s == Section(req.name, req.classId)
      && sections.rows == old(sections.rows)[id := s]
  {
    if req.classId !in classes.rows {
      return Err(NotFound);
    }
    if ExistsBySchoolClassIdAndName(sections.rows, req.classId, req.name) {
      return Err(DuplicateResource);
    }
    var section := Section(req.name, req.classId);
    var id := sections.Insert(section);
    r := Ok((id, section));
  }

  /** getSectionsByClassId */
  method GetSectionsByClassId(sections: SectionRows, classes: map<nat, SchoolClass>, classId: nat)
    returns (r: Result<SectionRows>)
    ensures r.Err? <==> classId !in classes
    ensures r.Err? ==> r.error == NotFound
    ensures r.Ok? ==> forall k :: k in r.value <==> k in sections && sections[k].classId == classId
    ensures r.Ok? ==> forall k :: k in r.value ==> r.value[k] == sections[k]
  {
    if classId !in classes {
      return Err(NotFound);
    }
    r := Ok(FindBySchoolClassId(sections, classId));
  }

  /** updateSection: a change of class is checked against the target class, and the
      duplicate check runs in the target class without the section itself. */
  method UpdateSection(sections: Table<Section>, classes: Table<SchoolClass>, id: nat, req: SectionRequest)
    returns (r: Result<(nat, Section)>)
    requires sections.Valid() && Consistent(sections.rows, classes.rows)
    modifies sections
    ensures sections.Valid() && Consistent(sections.rows, classes.rows)
    ensures r == Err(NotFound) <==> id !in old(sections.rows) || req.classId !in classes.rows
    ensures r == Err(DuplicateResource)
        <==> id in old(sections.rows) && req.classId in classes.rows
             && ExistsBySchoolClassIdAndNameAndIdNot(old(sections.rows), req.classId, req.name, id)
    ensures r.Ok? <==> id in old(sections.rows) && req.classId in classes.rows
                       && !ExistsBySchoolClassIdAndNameAndIdNot(old(sections.rows), req.classId, req.name, id)
    ensures r.Err? ==> sections.rows == old(sections.rows)
    ensures r.Ok? ==>
      && r.value == (id, Section(req.name, req.classId))
      && sections.rows == old(sections.rows)[id := Section(req.name, req.classId)]
  {
    if id !in sections.rows {
      return Err(NotFound);
    }
    var section := sections.rows[id];
    if section.classId != req.classId {
      if req.classId !in classes.rows {
        return Err(NotFound);
      }
      section := section.(classId := req.classId);
    }
    if ExistsBySchoolClassIdAndNameAndIdNot(sections.rows, req.classId, req.name, id) {
      return Err(DuplicateResource);
    }
    section := section.(name := req.name);
    sections.Update(id, section);
    r := Ok((id, section));
  }

  /** deleteSection */
  method DeleteSection(sections: Table<Section>, classes: Table<SchoolClass>, id: nat) returns (r: Result<()>)
    requires sections.Valid() && Consistent(sections.rows, classes.rows)
    modifies sections
    ensures sections.Valid() && Consistent(sections.rows, classes.rows)
    ensures r.Err? <==> id !in old(sections.rows)
    ensures r.Err? ==> r.error == NotFound && sections.rows == old(sections.rows)
    ensures r.Ok? ==> sections.rows == old(sections.rows) - {id}
  {
    if id !in sections.rows {
      return Err(NotFound);
    }
    sections.Delete(id);
    r := Ok(());
  }
}

=== FILE: subject_repository.dfy ===
/** SubjectRepository: the derived name and code queries and findByIdIn. */
module SubjectRepository {
  import opened Common
  import opened Entities

  type SubjectRows = map<nat, Subject>

  /** existsByName */
  function ExistsByName(rows: SubjectRows, name: string): (b: bool)
    ensures b <==> exists k :: k in rows && rows[k].name == name
  {
    name in (set k | k in rows :: rows[k].name)
  }

  /** existsByNameAndIdNot */
  function ExistsByNameAndIdNot(rows: SubjectRows, name: string, id: nat): (b: bool)
    ensures b <==> exists k :: k in rows && k != id && rows[k].name == name
  {
    name in (set k | k in rows && k != id :: rows[k].name)
  }

  /** existsByCode: a stored null code equals no string. */
  function ExistsByCode(rows: SubjectRows, code: string): (b: bool)
    ensures b <==> exists k :: k in rows && rows[k].code == Some(code)
  {
    Some(code) in (set k | k in rows :: rows[k].code)
  }

  /** existsByCodeAndIdNot */
  function ExistsByCodeAndIdNot(rows: SubjectRows, code: string, id: nat): (b: bool)
    ensures b <==> exists k :: k in rows && k != id && rows[k].code == Some(code)
  {
    Some(code) in (set k | k in rows && k != id :: rows[k].code)
  }

  /** findByIdIn: the ids of the stored subjects among `ids` (each row is returned
      once, so the size of the result list is the size of this set). */
  function FindByIdIn(rows: SubjectRows, ids: set<nat>): (r: set<nat>)
    ensures r <= ids && r <= rows.Keys
    ensures forall k :: k in ids && k in rows ==> k in r
  {
    set k | k in ids && k in rows
  }

  /** The size test of assignSubjectsToClass: the result is as large as the request
      exactly when every requested id is stored, and then it is the request itself. */
  lemma FindByIdInSize(rows: SubjectRows, ids: set<nat>)
    ensures |FindByIdIn(rows, ids)| == |ids| <==> ids <= rows.Keys
    ensures ids <= rows.Keys ==> FindByIdIn(rows, ids) == ids
  {
    var found := FindByIdIn(rows, ids);
    if |found| == |ids| {
      var missing := ids - found;
      assert ids == found + missing;
      assert |missing| == 0;
      assert ids <= rows.Keys;
    }
    if ids <= rows.Keys {
      assert found == ids;
    }
  }
}

=== FILE: subject_service.dfy ===
/** SubjectService: subject names are unique, and codes are unique among the
    subjects whose code is present and not blank. */
module SubjectService {
  import opened Common
  import opened Entities
  import opened Jpa
  import opened SubjectRepository

  /** The guard `code != null && !code.isBlank()` under which the code is checked. */
  predicate CodeChecked(code: Option<string>) {
    code.Some? && !IsBlank(code.value)
  }

  /** Distinct subjects have distinct names. */
  predicate NamesUnique(rows: SubjectRows) {
    forall j, k :: j in rows && k in rows && j != k ==> rows[j].name != rows[k].name
  }

  /** No two subjects share a code that is present and not blank. */
  predicate CheckedCodesUnique(rows: SubjectRows) {
    forall j, k :: j in rows && k in rows && j != k && CodeChecked(rows[j].code) ==> rows[j].code != rows[k].code
  }

  /** What every committed state of the subject table satisfies. */
  predicate Consistent(rows: SubjectRows) {
    NamesUnique(rows) && CheckedCodesUnique(rows)
  }

  /** SubjectMapper.updateEntityFromRequest: a null code keeps the stored one. */
  function UpdateEntityFromRequest(req: SubjectRequest, s: Subject): (e: Subject)
    ensures e.name == req.name
    ensures req.code.Some? ==> e.code == req.code
    ensures req.code.None? ==> e.code == s.code
  {
    Subject(req.name, if req.code.Some? then req.code else s.code)
  }

  /** Applying the same request a second time changes nothing more. */
  lemma UpdateEntityIdempotent(req: SubjectRequest, s: Subject)
    ensures UpdateEntityFromRequest(req, UpdateEntityFromRequest(req, s)) == UpdateEntityFromRequest(req, s)
  {
  }

  /** createSubject: the name is checked first, the code only when it is present and
      not blank. */
  method CreateSubject(subjects: Table<Subject>, req: SubjectRequest) returns (r: Result<(nat, Subject)>)
    requires subjects.Valid() && Consistent(subjects.rows)
    modifies subjects
    ensures subjects.Valid() && Consistent(subjects.rows)
    ensures r.Err? <==> ExistsByName(old(subjects.rows), req.name)
                        || (CodeChecked(req.code) && ExistsByCode(old(subjects.rows), req.code.value))
    ensures !CodeChecked(req.code) ==> (r.Err? <==> ExistsByName(old(subjects.rows), req.name))
    ensures r.Err? ==> r.error == DuplicateResource && subjects.rows == old(subjects.rows)
    ensures r.Ok? ==>
      var (id, s) := r.value;
      && id !in old(subjects.rows)
      && s == Subject(req.name, req.code)
      && subjects.rows == old(subjects.rows)[id := s]
  {
    if ExistsByName(subjects.rows, req.name) {
      return Err(DuplicateResource);
    }
    if req.code.Some? && !IsBlank(req.code.value) && ExistsByCode(subjects.rows, req.code.value) {
      return Err(DuplicateResource);
    }
    var subject := Subject(req.name, req.code);
    var id := subjects.Insert(subject);
    r := Ok((id, subject));
  }

  /** updateSubject: both duplicate checks leave the subject itself out. */
  method UpdateSubject(subjects: Table<Subject>, id: nat, req: SubjectRequest) returns (r: Result<(nat, Subject)>)
    requires subjects.Valid() && Consistent(subjects.rows)
    modifies subjects
    ensures subjects.Valid() && Consistent(subjects.rows)
    ensures r == Err(NotFound) <==> id !in old(subjects.rows)
    ensures r == Err(DuplicateResource)
        <==> id in old(subjects.rows)
             && (|| ExistsByNameAndIdNot(old(subjects.rows), req.name, id)
                 || (CodeChecked(req.code) && ExistsByCodeAndIdNot(old(subjects.rows), req.code.value, id)))
    ensures r.Ok? <==> id in old(subjects.rows) && !ExistsByNameAndIdNot(old(subjects.rows), req.name, id)
                       && !(CodeChecked(req.code) && ExistsByCodeAndIdNot(old(subjects.rows), req.code.value, id))
    ensures r.Err? ==> subjects.rows == old(subjects.rows)
    ensures r.Ok? ==>
      && r.value == (id, Subject(req.name, if req.code.Some? then req.code else old(subjects.rows)[id].code))
      && subjects.rows == old(subjects.rows)[id := r.value.1]
  {
    if id !in subjects.rows {
      return Err(NotFound);
    }
    var subject := subjects.rows[id];
    if ExistsByNameAndIdNot(subjects.rows, req.name, id) {
      return Err(DuplicateResource);
    }
    if req.code.Some? && !IsBlank(req.code.value) && ExistsByCodeAndIdNot(subjects.rows, req.code.value, id) {
      return Err(DuplicateResource);
    }
    subject := UpdateEntityFromRequest(req, subject);
    subjects.Update(id, subject);
    r := Ok((id, subject));
  }

  /** deleteSubject. The class_subjects rows belong to the classes, so deleting a
      subject some class still holds is refused by the join table's foreign key. */
  method DeleteSubject(subjects: Table<Subject>, classes: Table<SchoolClass>, id: nat) returns (r: Result<()>)
    requires subjects.Valid() && Consistent(subjects.rows) && AssignedSubjectsExist(classes.rows, subjects.rows)
    modifies subjects
    ensures subjects.Valid() && Consistent(subjects.rows) && AssignedSubjectsExist(classes.rows, subjects.rows)
    ensures r == Err(NotFound) <==> id !in old(subjects.rows)
    ensures r == Err(IntegrityViolation)
        <==> id in old(subjects.rows) && exists c :: c in classes.rows && id in classes.rows[c].subjects
    ensures r.Ok? <==> id in old(subjects.rows) && forall c :: c in classes.rows ==> id !in classes.rows[c].subjects
    ensures r.Err? ==> subjects.rows == old(subjects.rows)
    ensures r.Ok? ==> subjects.rows == old(subjects.rows) - {id}
  {
    if id !in subjects.rows {
      return Err(NotFound);
    }
    if exists c :: c in classes.rows && id in classes.rows[c].subjects {
      return Err(IntegrityViolation);
    }
    subjects.Delete(id);
    r := Ok(());
  }
}
